=== FILE: README.md ===
# A verified model of the ecommerce-libros storefront

This is a Dafny model of the client side of *ecommerce-libros*, a React bookstore for university students. It covers the logic that decides what shoppers and administrators see and send:

- the shopping-cart store and its write-through copy in `localStorage`;
- the authentication store that reads the signed-in user out of a JWT;
- the route guards and the top-level redirect chain;
- the catalogue's search, sort modes and pagination;
- the checkout's order construction and error mapping;
- the sign-up and sign-in forms with their validators;
- the admin panel's order search, order labels and product editor.

Every component becomes a pure function over immutable datatypes. The server's replies, the browser's decoders and the case-mapping functions become parameters.

Modules, in dependency order:

| module | file | what it holds |
|---|---|---|
| `Options` | options.dfy | `Option<T>` |
| `Text` | text.dfy | JavaScript string primitives: `includes`, `trim` over the ECMAScript white-space set, `startsWith`, UTF-16 `length`, `slice(-n)` |
| `Seqs` | seqs.dfy | order-keeping filter; stable insertion sort by an integer key |
| `Js` | js.dfy | decoded JSON values, truthiness, property access, `localStorage` as a map |
| `Shop` | shop.dfy | the product record and the `getImageUrl` rewrite |
| `Cart` | cart.dfy | `CartProvider` |
| `Auth` | auth.dfy | `parseJwt` and `AuthProvider` |
| `Routing` | routing.dfy | `RequireAuth`, `MainApp`, the route table, the navigation bar, `CatalogRoute` |
| `Catalog` | catalog.dfy | the catalogue page |
| `Http` | http.dfy | server replies and the shared message mapping |
| `Checkout` | checkout.dfy | the checkout page |
| `Validation` | validation.dfy | the e-mail and telephone regular expressions, and the shared e-mail rule |
| `Register` | register.dfy | the sign-up form |
| `Login` | login.dfy | the sign-in form |
| `Admin` | admin.dfy | the admin panel's order list and product editor |

The regular expression `/\S+@\S+\.\S+/` is given two definitions that are proved equivalent:

- as its mathematical meaning, "some substring has the shape";
- as a left-to-right scanner.

`Trim` and `\S` use the exact ECMAScript white-space and line-terminator set, not an uninterpreted predicate, because that set is a fixed list of code points.

Behaviour of the code that is easy to misread:

- **`clearCart`.** It removes the `'cart'` key, but the persist effect then writes the new empty cart back. Storage therefore ends up holding the encoding of `[]`, not nothing (`Cart.Apply`, `Cart.ClearThenReload`).
- **`MainApp` while loading.** It makes no redirect but still renders the route table. Each guarded route's `RequireAuth` then renders nothing, while the open pages `/login` and `/registro` render (`Routing.Page`).
- **A stored token that cannot be decoded.** It still makes the session authenticated (`Auth.AuthenticationIgnoresDecoding`).
- **A failed decode at login.** `login` keeps the previous user when the new token yields no profile (`Auth.LoginKeepsStaleUser`).
- **A success reply with no token.** `login(undefined)` stores the text `"undefined"`, which signs the user in and keeps them signed in across reloads (`Login.MissingTokenStillSignsIn`).
- **An unreadable response body in the two forms.** `res.json()` is awaited before `res.ok` is looked at. So an unreadable body is reported as a connection failure even on a 2xx reply (`Login.Submit`, `Register.Submit`).

## Model

| member | source | states |
|---|---|---|
| `Text.Includes` | Frontend/src/pages/Catalog.jsx:41 | `includes` holds exactly when the needle occurs at some index of the text |
| `Text.Trim` | Frontend/src/components/RegisterForm.jsx:24-25 | `trim()` cuts a contiguous middle whose outside is all white space and whose ends are not white space |
| `Text.TrimEmptyIffBlank` | Frontend/src/components/RegisterForm.jsx:24 | `!value.trim()` holds exactly when every character is white space |
| `Text.Utf16Length` | Frontend/src/components/RegisterForm.jsx:25 | a JavaScript length lies between the number of code points and twice that, and equals it for text inside the Basic Multilingual Plane |
| `Seqs.SortBy` | Frontend/src/pages/Catalog.jsx:44-51 | the sort returns a permutation of its input, ordered by the key |
| `Seqs.SortStable` | Frontend/src/pages/Catalog.jsx:44-51 | elements of equal key keep their relative order (the sort is stable) |
| `Seqs.SortStableDescending` | Frontend/src/pages/Catalog.jsx:46-47 | sorting on the negated key (the `b - a` comparator) also keeps ties in their original order |
| `Js.Truthy` | Frontend/src/context/AuthContext.jsx:9 | a value is falsy exactly when it is `undefined`, `null`, `false`, `0`, `NaN` or `''` (the test `Boolean(...)` and every `if`/`&&` apply) |
| `Js.GetItem` | Frontend/src/context/AuthContext.jsx:23 | `getItem` gives the stored text for a present key and `null` exactly when the key is absent |
| `Shop.ImageUrl` | Frontend/src/pages/Catalog.jsx:82-86 | no image gives `''`; a `/uploads/` path is prefixed with the API origin; any other value is kept (the same rewrite is at Checkout.jsx:67-71 and AdminPanel.jsx:286-290) |
| `Shop.ImageUrlIdempotent` | Frontend/src/pages/Catalog.jsx:82-86 | rewriting an already rewritten URL changes nothing |
| `Cart.Subtotal` | Frontend/src/context/CartContext.jsx:43 | a line of one copy costs its snapshot price, and more copies of a non-negative price never cost less |
| `Cart.Total` | Frontend/src/context/CartContext.jsx:42-44 | the empty cart totals 0; with non-negative prices and positive quantities the total is non-negative and at least every line's price |
| `Cart.UpdateWhere` | Frontend/src/context/CartContext.jsx:22 | the `map` rewrites the quantity of exactly the lines with the id, keeping every product snapshot and the order |
| `Cart.Add` | Frontend/src/context/CartContext.jsx:18-27 | an absent product is appended as one line of quantity 1; a present one adds 1 to its line's quantity, and nothing else changes |
| `Cart.AddExisting` | Frontend/src/context/CartContext.jsx:20-22 | in a cart with unique ids, adding a present product changes only that line, in place, to quantity + 1 with the old snapshot |
| `Cart.AddExistingTotal` | Frontend/src/context/CartContext.jsx:20-22 | adding a present product raises the total by that line's snapshot price |
| `Cart.AddNewTotal` | Frontend/src/context/CartContext.jsx:23-25 | adding an absent product raises the total by its price |
| `Cart.AddTwiceMerges` | Frontend/src/context/CartContext.jsx:18-27 | in any cart, adding the same new product twice yields one line of quantity 2 at the end |
| `Cart.UpdateQuantity` | Frontend/src/context/CartContext.jsx:29-31 | matching lines get `max(1, qty)`; others are untouched; an unknown id leaves the cart unchanged |
| `Cart.UpdateExisting` | Frontend/src/context/CartContext.jsx:29-31 | with unique ids the update replaces exactly line `k` in place |
| `Cart.UpdateExistingTotal` | Frontend/src/context/CartContext.jsx:29-31 | the total trades the line's old subtotal for its clamped one |
| `Cart.Remove` | Frontend/src/context/CartContext.jsx:33-35 | no line with the id survives; every other line does; an unknown id leaves the cart unchanged |
| `Cart.RemoveAppend` | Frontend/src/context/CartContext.jsx:33-35 | removal distributes over concatenation, so survivors keep their order |
| `Cart.RemoveExisting` | Frontend/src/context/CartContext.jsx:33-35 | with unique ids removing line `k`'s id cuts out exactly that line and its subtotal |
| `Cart.TotalAppend` | Frontend/src/context/CartContext.jsx:42-44 | the total of a concatenation is the sum of the totals |
| `Cart.TotalExample` | Frontend/src/context/CartContext.jsx:42-44 | lines (100 x 2) and (50 x 1) total 250; the empty cart totals 0 |
| `Cart.AddPositive` | Frontend/src/context/CartContext.jsx:18-27 | adding keeps every quantity at least 1 |
| `Cart.UpdatePositive` | Frontend/src/context/CartContext.jsx:29-31 | updating, with any requested quantity, keeps every quantity at least 1 |
| `Cart.RemovePositive` | Frontend/src/context/CartContext.jsx:33-35 | removing keeps every quantity at least 1 |
| `Cart.AddValid` | Frontend/src/context/CartContext.jsx:18-27 | adding keeps ids unique and quantities at least 1 |
| `Cart.UpdateValid` | Frontend/src/context/CartContext.jsx:29-31 | updating, with any requested quantity, keeps ids unique and quantities at least 1 |
| `Cart.RemoveValid` | Frontend/src/context/CartContext.jsx:33-35 | removing keeps ids unique and quantities at least 1 |
| `Cart.Persist` | Frontend/src/context/CartContext.jsx:14-16 | the encoded cart is stored under `'cart'` and no other key changes |
| `Cart.Hydrate` | Frontend/src/context/CartContext.jsx:8-11 | a missing or empty saved string gives the empty cart; otherwise the saved string is decoded |
| `Cart.Mount` | Frontend/src/context/CartContext.jsx:8-16 | the mounted store holds the hydrated cart, and fails exactly when decoding the saved cart fails |
| `Cart.Apply` | Frontend/src/context/CartContext.jsx:18-40 | `addToCart`, `updateQuantity` and `removeFromCart` change the cart as `Add`, `UpdateQuantity` and `Remove` do; `clearCart` leaves the empty cart; after every mutator storage holds the encoding of the new cart |
| `Cart.ApplyInvariant` | Frontend/src/context/CartContext.jsx:14-40 | with a faithful encoding, every mutator leaves storage in sync with memory, keeps the cart well-formed and touches no other key |
| `Cart.ClearThenReload` | Frontend/src/context/CartContext.jsx:37-40 | after `clearCart` both the cart and the cart a reload rebuilds are empty |
| `Cart.RemountRestores` | Frontend/src/context/CartContext.jsx:8-16 | mounting over storage the store wrote restores the same cart |
| `Auth.SecondSegment` | Frontend/src/context/AuthContext.jsx:6 | `split('.')[1]` exists exactly when the token has a dot, and holds no dot |
| `Auth.IndexOfAfter` | Frontend/src/context/AuthContext.jsx:6 | `split` cuts at the first dot: after a dot-free stretch, that is the dot ending it |
| `Auth.SecondSegmentAfter` | Frontend/src/context/AuthContext.jsx:6 | after a dot-free header and its dot, the segment read runs to the next dot or the end |
| `Auth.SecondSegmentOfJwt` | Frontend/src/context/AuthContext.jsx:6 | for `header.payload.signature` (or `header.payload`) the segment read is the payload |
| `Auth.AtobArgument` | Frontend/src/context/AuthContext.jsx:6 | a token without a dot hands `atob` the text `"undefined"` |
| `Auth.CoerceAdmin` | Frontend/src/context/AuthContext.jsx:8-10 | `isAdmin` becomes the boolean of its truthiness; every other field is untouched |
| `Auth.CoerceAdminIdempotent` | Frontend/src/context/AuthContext.jsx:8-10 | coercing twice equals coercing once |
| `Auth.ParseJwt` | Frontend/src/context/AuthContext.jsx:4-15 | a decoding failure gives `null`; a payload without a truthy `user` is returned as is; a non-object `user` gives `null`; otherwise `user.isAdmin` is coerced |
| `Auth.ParseJwtReadsUser` | Frontend/src/context/AuthContext.jsx:4-15 | a payload `{user: u}` yields `u` with a boolean flag, an admin exactly when `u.isAdmin` was truthy |
| `Auth.UserOf` | Frontend/src/context/AuthContext.jsx:27 | `payload && payload.user` offers a profile exactly when both are truthy |
| `Auth.TokenUser` | Frontend/src/context/AuthContext.jsx:26-29 | any profile read from a token is an object with a boolean `isAdmin` |
| `Auth.Startup` | Frontend/src/context/AuthContext.jsx:22-35 | loading ends; authenticated exactly when a non-empty token is stored; the profile comes from that token, else `null` |
| `Auth.Login` | Frontend/src/context/AuthContext.jsx:37-44 | the token is stored and the session authenticated; the profile is replaced only when the token yields one, else kept |
| `Auth.LoginUndefined` | Frontend/src/context/AuthContext.jsx:37-44 | `login(undefined)` stores the text `"undefined"`, authenticates and keeps the previous profile: `token.split` throws inside `parseJwt`, whose `catch` returns `null` |
| `Auth.LoginUndefinedAsLogin` | Frontend/src/context/AuthContext.jsx:4-15 | when `atob("undefined")` fails, `login(undefined)` has the same effect as `login("undefined")` |
| `Auth.LoginUndefinedThenReload` | Frontend/src/context/AuthContext.jsx:22-35 | a reload after `login(undefined)` is authenticated, with no profile when `"undefined"` does not decode |
| `Auth.Logout` | Frontend/src/context/AuthContext.jsx:46-50 | the token is removed; the session is unauthenticated with no profile; other keys and `loading` are unchanged |
| `Auth.TransitionsKeepConsistent` | Frontend/src/context/AuthContext.jsx:22-50 | mount, login and logout keep "a profile implies authenticated and well-formed; authenticated implies a stored token" |
| `Auth.LogoutThenReload` | Frontend/src/context/AuthContext.jsx:46-50 | a reload after logout gives the settled signed-out state |
| `Auth.LoginThenReload` | Frontend/src/context/AuthContext.jsx:37-44 | a reload after login is authenticated exactly when the token is non-empty, and restores the profile login took |
| `Auth.LoginKeepsStaleUser` | Frontend/src/context/AuthContext.jsx:37-44 | when the new token yields no profile, login keeps the old profile but a reload shows none |
| `Auth.AuthenticationIgnoresDecoding` | Frontend/src/context/AuthContext.jsx:24-25 | whether a stored token authenticates never depends on how it decodes |
| `Auth.LogoutIdempotent` | Frontend/src/context/AuthContext.jsx:46-50 | logging out twice equals logging out once |
| `Routing.ViewOf` | Frontend/src/App.jsx:18-23 | a page sees `loading`, `isAuthenticated`, and admin exactly when a profile exists with truthy `isAdmin` |
| `Routing.RequireAuth` | Frontend/src/App.jsx:17-25 | nothing while loading; otherwise sign-in first, then the admin-only check, then the shopper-only check, else the children |
| `Routing.MainRedirect` | Frontend/src/App.jsx:43-57 | no redirect while loading; the four rules in first-match order; every target is `/login`, `/admin` or `/seleccionar-categoria` |
| `Routing.MainRedirectNoLoop` | Frontend/src/App.jsx:43-57 | at the target of a top-level redirect there is no further top-level redirect |
| `Routing.MatchRoute` | Frontend/src/App.jsx:63-103 | only `/login` and `/registro` are open; only `/admin` is admin-only; `/` goes to the login page |
| `Routing.Page` | Frontend/src/App.jsx:42-103 | a top-level redirect wins over the route table; a page renders nothing only while loading |
| `Routing.GuardsAgree` | Frontend/src/App.jsx:43-100 | after loading, a guarded page the top-level chain lets through always renders |
| `Routing.SettlesWithinTwoRedirects` | Frontend/src/App.jsx:43-102 | every path settles after at most two redirects |
| `Routing.SignedOutGoesToLogin` | Frontend/src/App.jsx:44-46 | signed out, every page but `/login` and `/registro` redirects to `/login`, and those two render |
| `Routing.RoutingExamples` | Frontend/src/App.jsx:44-57 | `/carrito`: signed out to `/login`, admin to `/admin`, shopper renders, nothing while loading; shopper on `/admin` to the categories |
| `Routing.ShowNavbar` | Frontend/src/App.jsx:62 | the navigation bar shows exactly for a non-admin outside `/login` and `/registro` |
| `Routing.NavbarOnRenderedPages` | Frontend/src/App.jsx:62 | on a rendered page the navigation bar shows exactly outside `/login`, `/registro` and `/admin` |
| `Routing.CategoryFor` | Frontend/src/App.jsx:30-34 | `'medicina'` gets the medicine name and description, and every other segment the general ones |
| `Catalog.TotalPages` | Frontend/src/pages/Catalog.jsx:67 | the page count is the least `n` with `8 n >= total` |
| `Catalog.PageButtons` | Frontend/src/pages/Catalog.jsx:246 | there are as many buttons as pages |
| `Catalog.PageButtonsCover` | Frontend/src/pages/Catalog.jsx:246 | a button for page `p` exists exactly when `1 <= p <= totalPages`, in increasing order |
| `Catalog.PrevDisabled` | Frontend/src/pages/Catalog.jsx:242 | from a page in range, Prev is disabled exactly when a step back would leave the range |
| `Catalog.NextDisabled` | Frontend/src/pages/Catalog.jsx:258 | from a page in range, Next is disabled exactly when a step forward would leave the range |
| `Catalog.ArrowsStayInRange` | Frontend/src/pages/Catalog.jsx:239-261 | Prev is disabled on page 1 and Next on the last page, so an enabled arrow never leaves `1..totalPages` |
| `Catalog.FilterByName` | Frontend/src/pages/Catalog.jsx:40-42 | a product is kept exactly when its lowercased name contains the lowercased term |
| `Catalog.FilterByNameKeepsOrder` | Frontend/src/pages/Catalog.jsx:40-42 | the search distributes over concatenation, so order is kept |
| `Catalog.EmptyTermKeepsAll` | Frontend/src/pages/Catalog.jsx:40-42 | an empty term keeps every product in order |
| `Catalog.ApplySort` | Frontend/src/pages/Catalog.jsx:43-52 | each mode permutes the list; the `-low` modes ascend and the `-high` modes descend on price or pages; any other mode keeps the order |
| `Catalog.PriceSortsAreStable` | Frontend/src/pages/Catalog.jsx:44-47 | books of equal price keep their relative order under both price sorts |
| `Catalog.PagesSortsAreStable` | Frontend/src/pages/Catalog.jsx:48-51 | books of equal page count keep their relative order under both page sorts |
| `Catalog.ApplySortIdempotent` | Frontend/src/pages/Catalog.jsx:43-52 | re-sorting a sorted list by the same mode changes nothing |
| `Catalog.Displayed` | Frontend/src/pages/Catalog.jsx:40-53 | the grid shows exactly the matching products, each as many times as it occurs in the listing; the price and page modes order them ascending or descending on their key, keeping ties in search order; any other mode keeps the search order |
| `Http.ServerMessage` | Frontend/src/components/LoginForm.jsx:61-67 | a message mentioning the keyword gives the fixed text, another non-empty message is echoed, none gives the generic text |
| `Http.ServerMessageNonEmpty` | Frontend/src/components/LoginForm.jsx:61-67 | with non-empty fixed and generic texts the banner is never blank |
| `Http.ServerMessageEchoes` | Frontend/src/components/RegisterForm.jsx:73-79 | a server message is shown verbatim exactly when it is non-empty and lacks the keyword |
| `Checkout.OrderItems` | Frontend/src/pages/Checkout.jsx:33 | the payload lists each cart line as (`_id`, quantity), same length and order |
| `Checkout.OrderItemsWellFormed` | Frontend/src/pages/Checkout.jsx:33 | a well-formed cart names each product once with a positive quantity |
| `Checkout.BearerHeader` | Frontend/src/pages/Checkout.jsx:41 | the header is `Bearer ` and the stored token, or `Bearer null` without one |
| `Checkout.OrderErrorMessage` | Frontend/src/pages/Checkout.jsx:48-54 | "Verifica los datos" gives the fixed text, another message is echoed, none gives the order-specific generic text |
| `Checkout.FailureText` | Frontend/src/pages/Checkout.jsx:45-62 | a refusal with a readable body shows the mapped server message; an unreachable server or an unreadable body (the `catch`) shows the connection text; never blank |
| `Checkout.PlaceOrder` | Frontend/src/pages/Checkout.jsx:16-65 | empty cart first, then missing payment method, send nothing; otherwise the request carries the bearer header, the line items, the cart total, the method and `user?.id`; success exactly on an ok reply; a refused reply with a body shows the mapped server message, and an unreachable server or an unreadable refusal shows the connection text |
| `Checkout.OrderAndClear` | Frontend/src/pages/Checkout.jsx:41-60 | with the token read from the same storage that holds the cart, a successful order leaves the cart empty and storage holding the encoding of the empty cart; otherwise the store is left exactly as it was |
| `Checkout.OrderThenReload` | Frontend/src/pages/Checkout.jsx:58-59 | with a faithful encoding, a reload after a successful order rebuilds the empty cart |
| `Checkout.PaymentGuardUnreachableFromPage` | Frontend/src/pages/Checkout.jsx:131-148 | with a non-empty cart, either radio choice sends the order |
| `Checkout.SumLeft` | Frontend/src/context/CartContext.jsx:43 | one number sums to itself, and non-negative numbers sum to a non-negative total |
| `Checkout.SumLeftFirst` | Frontend/src/context/CartContext.jsx:43 | folding from the left equals peeling off the first number and summing the rest |
| `Checkout.LineSubtotals` | Frontend/src/pages/Checkout.jsx:113 | each displayed line subtotal is price times quantity |
| `Checkout.SubtotalsAddUpToTotal` | Frontend/src/pages/Checkout.jsx:105-120 | the displayed subtotals add up to the displayed total |
| `Validation.RegexEmailIffEmailAt` | Frontend/src/components/RegisterForm.jsx:4 | some substring matches exactly when there is an `@` and a later `.` with non-blank neighbours and a blank-free stretch between |
| `Validation.ValidateEmail` | Frontend/src/components/RegisterForm.jsx:4 | the scan accepts exactly the strings the unanchored pattern matches |
| `Validation.EmailNotBlank` | Frontend/src/components/RegisterForm.jsx:27-29 | an address that passes the pattern is never blank after trimming |
| `Validation.EmailExamples` | Frontend/src/components/LoginForm.jsx:5 | `ana@mail.com` and a match inside other text pass; no dot, nothing before `@`, or a blank before `@` fail |
| `Validation.ValidatePhone` | Frontend/src/components/RegisterForm.jsx:5 | accepted exactly when empty or 7 to 15 ASCII digits |
| `Validation.PhoneAccepted` | Frontend/src/components/RegisterForm.jsx:5 | the empty field and 7- and 15-digit numbers pass |
| `Validation.PhoneRefused` | Frontend/src/components/RegisterForm.jsx:5 | 6- and 16-digit numbers and a letter among digits fail |
| `Validation.EmailFieldError` | Frontend/src/components/RegisterForm.jsx:27-29 | no message exactly when the pattern matches; blank gives "required"; otherwise a failure gives "invalid" |
| `Register.FieldError` | Frontend/src/components/RegisterForm.jsx:20-43 | the per-field rules for name (trimmed, at least 3), e-mail, password (at least 6, untrimmed) and telephone; any other field never errs |
| `Register.FieldErrorEmptyIffAcceptable` | Frontend/src/components/RegisterForm.jsx:20-40 | a field has no message exactly when its value meets that field's rule |
| `Register.AllValid` | Frontend/src/components/RegisterForm.jsx:53-57 | the pass over the fields finds no message exactly when the name has 3+ characters after trimming, the e-mail matches, the password has 6+ and the telephone is acceptable |
| `Register.RegisterErrorMessage` | Frontend/src/components/RegisterForm.jsx:73-79 | a message mentioning "email" gives the duplicate-account text; another is echoed; none gives the generic text |
| `Register.Submit` | Frontend/src/components/RegisterForm.jsx:51-85 | sent exactly when every field is clean; success resets the form and goes to `/login`; an error keeps the form and shows the mapped or connection message |
| `Register.SentFormsAreAcceptable` | Frontend/src/components/RegisterForm.jsx:51-57 | a sent form has a name of 3+, a matching e-mail, a password of 6+ and an acceptable telephone; the career is never checked |
| `Register.ResetFormIsRefused` | Frontend/src/components/RegisterForm.jsx:67-69 | the form left after success cannot be sent again as it is |
| `Login.FieldError` | Frontend/src/components/LoginForm.jsx:17-32 | the e-mail rule is the sign-up one; an empty password gets the "required" text and any other passes; other fields never err |
| `Login.AllValid` | Frontend/src/components/LoginForm.jsx:42-46 | the pass over the fields finds no message exactly when the e-mail matches and a password was typed |
| `Login.LoginErrorMessage` | Frontend/src/components/LoginForm.jsx:61-67 | "incorrectos" gives the fixed credentials text; another message is echoed; none gives the generic text |
| `Login.Submit` | Frontend/src/components/LoginForm.jsx:40-73 | sent exactly when clean; an ok reply with a readable body calls `login(token)`, or `login(undefined)` when it has no token; every other path leaves the session unchanged |
| `Login.SessionChangesOnlyOnAcceptance` | Frontend/src/components/LoginForm.jsx:55-58 | from a signed-out session, the session changes and becomes authenticated exactly on an accepted, readable reply |
| `Login.MissingTokenStillSignsIn` | Frontend/src/components/LoginForm.jsx:55-58 | a success reply without a token stores `"undefined"` and keeps the previous profile; that authenticates now and after a reload, with no profile when `"undefined"` does not decode |
| `Admin.FilterOrders` | Frontend/src/pages/AdminPanel.jsx:541-546 | an order is listed exactly when its lowercased id, name (or `''`) or e-mail (or `''`) contains the lowercased search |
| `Admin.FilterOrdersKeepsOrder` | Frontend/src/pages/AdminPanel.jsx:541-546 | the search distributes over concatenation, so the listing keeps its order |
| `Admin.EmptySearchListsAll` | Frontend/src/pages/AdminPanel.jsx:541-546 | an empty search lists every order |
| `Admin.ShortId` | Frontend/src/pages/AdminPanel.jsx:372 | the short number is the last four characters, or the whole id when shorter |
| `Admin.ShortIdOfSuffix` | Frontend/src/pages/AdminPanel.jsx:549 | whatever precedes them, the short number of an id is its last four characters |
| `Admin.StatusLabel` | Frontend/src/pages/AdminPanel.jsx:384 | the label is the uppercased first character followed by the rest unchanged |
| `Admin.StatusLabelKeepsTail` | Frontend/src/pages/AdminPanel.jsx:562 | when the first character uppercases to one character, the label differs from the status at most in its first place |
| `Admin.Edit` | Frontend/src/pages/AdminPanel.jsx:91-103 | editing loads the product's name, description, price, pages, category and image (or `''`), drops any chosen file and remembers the id |
| `Admin.ImageField` | Frontend/src/pages/AdminPanel.jsx:117-121 | a chosen file wins; otherwise a non-empty image text not starting with `blob:` is sent; otherwise no image |
| `Admin.EditKeepsStoredImage` | Frontend/src/pages/AdminPanel.jsx:97-121 | saving a loaded product without a new file resends its stored image path |
| `Admin.SaveTarget` | Frontend/src/pages/AdminPanel.jsx:123-133 | a non-empty edit id gives `PUT` to the product's URL; otherwise `POST` to the collection |
| `Admin.EditThenSaveUpdates` | Frontend/src/pages/AdminPanel.jsx:91-133 | after loading a product, saving updates that product |
| `Admin.Save` | Frontend/src/pages/AdminPanel.jsx:106-144 | success resets the editor to its initial state; failure keeps the editor and reports an edit or a creation error |
| `Admin.SaveResetsToCreate` | Frontend/src/pages/AdminPanel.jsx:135-138 | after a successful save the next save creates a product, with category `'medicina'` |

## Left out

- **React itself.** Render scheduling, JSX, toasts, `setTimeout` (including the delayed navigation after sign-up), scroll effects and the `loading` spinners are left out. Each handler is modelled as one atomic step.
- **The first-mount double write of `'cart'`.** On mount the persist effect also writes the initial empty cart before the restored one replaces it. `Cart.Mount` models only the settled result.
- **Network I/O.** Every `fetch` is replaced by a parameter (`Http.Reply`, or a success flag in `Admin.Save`). The same goes for the product, order, user and statistics listings, the dashboards and charts, and product deletion.
- **The orders-table delete button.** It calls the product delete endpoint (AdminPanel.jsx:573 calls the handler at 147-158). It is I/O and is not modelled.
- **Decoders and case mapping.** Base64 (`atob`), `JSON.parse` and `JSON.stringify` are parameters: `decode` in `Auth` and `CartCodec` in `Cart`. `toLowerCase` and `toUpperCase` are parameters too. The Unicode tables behind them are not modelled.
- **Corrupt stored cart.** The `JSON.parse` that rehydrates the cart is unguarded. `Cart.Hydrate` returns `None` for a saved string that does not decode, standing for the uncaught exception. Nothing is claimed about the page after it.
- **Numbers.** Prices, page counts and quantities are integers, so floating point, `NaN` from a non-numeric input, and the `Intl.NumberFormat` currency display are not modelled.
- **Shapes of JSON values.** Arrays are not told apart from other objects. A reply's `msg` or `token` that is not a string is not modelled, and neither is an order whose `_id` or `status` is not a string.
- **Storage.** `localStorage` is a single-writer map. Other tabs, quota errors and the `storage` event are not modelled.
- **Routing details.** React Router matches case-insensitively and tolerates a trailing slash. `Routing.MatchRoute` matches paths exactly.
- **Lone surrogates.** `charAt` and `slice` work on UTF-16 code units, while the model's strings are sequences of code points. For characters outside the Basic Multilingual Plane, `Admin.StatusLabel` and `Admin.ShortId` cut at code points.
- **Pagination with no results.** When `total` is 0, `totalPages` is 0 and Next would be enabled on page 1. The pagination bar is rendered only when products are shown, so `Catalog.ArrowsStayInRange` assumes `1 <= page <= totalPages`.
- **Other editor handlers.** The field-by-field `handleChange` and the cancel-edit button of the product editor are not modelled.
- **Files with no behaviour worth stating.** Home.jsx, CategorySelection.jsx, AuthStatus.jsx, Login.jsx, Register.jsx, useAuth.js and useCart.js are static markup, context lookups or one-line wrappers. The Navbar, Cart, Account and ProductDetail pages are not part of this model.
- Text.Utf16Length: states the exact length only for text inside the Basic Multilingual Plane and bounds it otherwise, because the count for other text depends on how many characters lie outside that plane.

=== FILE: admin.dfy ===
/**
 * The admin panel's own logic: the order search, the short order number and
 * status label shown in the order lists, and the product editor (loading a
 * product for editing, choosing what image to send, choosing between update
 * and creation, and resetting after a save).
 */
module Admin {
  import opened Options
  import opened Text
  import opened Js
  import opened Seqs
  import opened Shop

  const ProductsApi := "http://localhost:5000/api/productos"

  // ----- Orders -----

  /** The customer attached to an order, with the two fields the search reads. */
  datatype Customer = Customer(nombre: Option<string>, email: Option<string>)

  /** An order as listed: its `_id`, its customer if populated, its status and total. */
  datatype AdminOrder = AdminOrder(id: string, user: Option<Customer>, status: string, total: int)

  /** `order.user?.nombre || ''`. */
  function CustomerName(o: AdminOrder): string {
    if o.user.Some? && o.user.value.nombre.Some? then o.user.value.nombre.value else ""
  }

  /** `order.user?.email || ''`. */
  function CustomerEmail(o: AdminOrder): string {
    if o.user.Some? && o.user.value.email.Some? then o.user.value.email.value else ""
  }

  /** The search matches the order number, the customer name or the customer e-mail, ignoring case. */
  predicate OrderMatches(o: AdminOrder, search: string, lower: string -> string) {
    || Includes(lower(o.id), lower(search))
    || Includes(lower(CustomerName(o)), lower(search))
    || Includes(lower(CustomerEmail(o)), lower(search))
  }

  /** The orders table: the orders the search matches, in the order the server sent them. */
  function FilterOrders(orders: seq<AdminOrder>, search: string, lower: string -> string): (r: seq<AdminOrder>)
    ensures forall o :: o in r <==> o in orders && OrderMatches(o, search, lower)
    ensures |r| <= |orders|
  {
    var keep := (o: AdminOrder) => OrderMatches(o, search, lower);
    FilterMembers(orders, keep);
    Filter(orders, keep)
  }

  /** The search keeps the listing order: it distributes over concatenation. */
  lemma FilterOrdersKeepsOrder(a: seq<AdminOrder>, b: seq<AdminOrder>, search: string, lower: string -> string)
    ensures FilterOrders(a + b, search, lower) == FilterOrders(a, search, lower) + FilterOrders(b, search, lower)
  {
    FilterAppend(a, b, (o: AdminOrder) => OrderMatches(o, search, lower));
  }

  /** An empty search lists every order. */
  lemma EmptySearchListsAll(orders: seq<AdminOrder>, lower: string -> string)
    requires lower("") == ""
    ensures FilterOrders(orders, "", lower) == orders
  {
    var keep := (o: AdminOrder) => OrderMatches(o, "", lower);
    forall i | 0 <= i < |orders| ensures keep(orders[i]) {
      IncludesTrivial(lower(orders[i].id));
    }
    FilterIdentity(orders, keep);
  }

  /** The short order number shown after `#`: `_id.slice(-4)`. */
  function ShortId(id: string): (r: string)
    ensures |id| >= 4 ==> |r| == 4 && id == id[..|id| - 4] + r
    ensures |id| < 4 ==> r == id
  {
    TakeLast(id, 4)
  }

  /** Whatever precedes the last four characters, the short number is those four. */
  lemma ShortIdOfSuffix(prefix: string, last4: string)
    requires |last4| == 4
    ensures ShortId(prefix + last4) == last4
  {
    var id := prefix + last4;
    assert id[|id| - 4..] == last4;
  }

  /**
   * `status.charAt(0).toUpperCase() + status.slice(1)` with `toUpperCase`
   * supplied: the first character capitalised, the rest as it was.
   */
  function StatusLabel(status: string, upper: string -> string): (r: string)
    ensures |status| > 0 ==> r == upper(status[..1]) + status[1..]
    ensures status == "" ==> r == upper("")
  {
    var n := if |status| == 0 then 0 else 1;
    upper(status[..n]) + status[n..]
  }

  /**
   * When the first character capitalises to one character, the label has
   * the status's length and differs from it at most in the first place.
   */
  lemma StatusLabelKeepsTail(status: string, upper: string -> string)
    requires |status| > 0 && |upper(status[..1])| == 1
    ensures |StatusLabel(status, upper)| == |status|
    ensures forall k :: 1 <= k < |status| ==> StatusLabel(status, upper)[k] == status[k]
  {
  }

  // ----- Product editor -----

  /** A file chosen in the file input; only its identity matters here. */
  datatype FileRef = FileRef(name: string)

  /**
   * The editor's fields. Price and page count are JavaScript values: `''`
   * in a fresh form, numbers once a product is loaded.
   */
  datatype ProductForm = ProductForm(name: string, description: string, price: JsValue, pages: JsValue,
                                     image: string, category: string)

  /** The empty form, whose category defaults to medicine. */
  const InitialForm := ProductForm("", "", Str(""), Str(""), "", "medicina")

  /** Everything the editor keeps between renders. */
  datatype Editor = Editor(form: ProductForm, imageFile: Option<FileRef>, imagePreview: string,
                           editId: Option<string>, error: string)

  const InitialEditor := Editor(InitialForm, None, "", None, "")

  /** `handleEdit(prod)`: loads the product into the form, drops any chosen file, remembers the id. */
  function Edit(e: Editor, p: Product): (r: Editor)
    ensures r.form.name == p.name && r.form.description == p.description && r.form.category == p.category
    ensures r.form.price == Num(p.price as real) && r.form.pages == Num(p.pages as real)
    ensures r.form.image == p.image.GetOr("") && r.imagePreview == p.image.GetOr("")
    ensures r.imageFile.None? && r.editId == Some(p.id) && r.error == e.error
  {
    var img := p.image.GetOr("");
    Editor(ProductForm(p.name, p.description, Num(p.price as real), Num(p.pages as real), img, p.category),
           None, img, Some(p.id), e.error)
  }

  /** The `image` part of the multipart body. */
  datatype ImagePart = FilePart(file: FileRef) | PathPart(path: string) | NoImage

  /**
   * A newly chosen file always wins; otherwise the form's image text is sent
   * unless it is empty or a `blob:` preview address; otherwise nothing.
   */
  function ImageField(file: Option<FileRef>, image: string): (r: ImagePart)
    ensures file.Some? ==> r == FilePart(file.value)
    ensures file.None? && image != "" && !StartsWith(image, "blob:") ==> r == PathPart(image)
    ensures file.None? && (image == "" || StartsWith(image, "blob:")) ==> r == NoImage
  {
    match file
    case Some(f) => FilePart(f)
    case None => if image != "" && !StartsWith(image, "blob:") then PathPart(image) else NoImage
  }

  /** A product's stored image path survives an edit that picks no new file. */
  lemma EditKeepsStoredImage(e: Editor, p: Product)
    requires p.image.Some? && p.image.value != "" && !StartsWith(p.image.value, "blob:")
    ensures ImageField(Edit(e, p).imageFile, Edit(e, p).form.image) == PathPart(p.image.value)
  {
  }

  /** The request a save makes. */
  datatype SaveRequest = SaveRequest(httpMethod: string, url: string)

  /** `if (editId)`: a non-empty id selects an update. */
  predicate Editing(editId: Option<string>) {
    editId.Some? && editId.value != ""
  }

  /** Update the product being edited with `PUT`, otherwise create one with `POST`. */
  function SaveTarget(editId: Option<string>): (r: SaveRequest)
    ensures Editing(editId) ==> r == SaveRequest("PUT", ProductsApi + "/" + editId.value)
    ensures !Editing(editId) ==> r == SaveRequest("POST", ProductsApi)
  {
    if Editing(editId) then SaveRequest("PUT", ProductsApi + "/" + editId.value)
    else SaveRequest("POST", ProductsApi)
  }

  /** After loading a product, saving updates that same product. */
  lemma EditThenSaveUpdates(e: Editor, p: Product)
    requires p.id != ""
    ensures SaveTarget(Edit(e, p).editId) == SaveRequest("PUT", ProductsApi + "/" + p.id)
  {
  }

  /**
   * `handleSubmit` with the request's outcome as a parameter (`ok` false for
   * a refused reply and for a failed request alike): success resets the
   * editor, failure keeps it and reports which kind of save failed.
   */
  function Save(e: Editor, ok: bool): (r: Editor)
    ensures ok ==> r == InitialEditor
    ensures !ok ==>
      r.form == e.form && r.imageFile == e.imageFile && r.imagePreview == e.imagePreview && r.editId == e.editId
    ensures !ok && Editing(e.editId) ==> r.error == "Error al editar producto"
    ensures !ok && !Editing(e.editId) ==> r.error == "Error al crear producto"
  {
    if ok then Editor(InitialForm, None, "", None, "")
    else e.(error := if Editing(e.editId) then "Error al editar producto" else "Error al crear producto")
  }

  /** After a successful save the next save creates a product again. */
  lemma SaveResetsToCreate(e: Editor)
    ensures SaveTarget(Save(e, true).editId) == SaveRequest("POST", ProductsApi)
    ensures Save(e, true).form.category == "medicina"
  {
  }
}

=== FILE: auth.dfy ===
/**
 * The authentication store (`AuthProvider`): the bearer token kept under the
 * `'token'` key of `localStorage`, the profile read out of the token's
 * payload by `parseJwt`, and the `isAuthenticated` / `user` / `loading`
 * triple every page reads. Base64 and JSON decoding are a parameter
 * `decode`; its `None` is the exception `atob` or `JSON.parse` raises.
 */
module Auth {
  import opened Options
  import opened Js

  const TokenKey := "token"

  /** The index of the first `c` in `s`, if any. */
  function IndexOf(s: string, c: char): (r: Option<nat>)
    ensures r.Some? ==> r.value < |s| && s[r.value] == c && c !in s[..r.value]
    ensures r.None? <==> c !in s
  {
    if |s| == 0 then None
    else if s[0] == c then Some(0)
    else
      var rest := IndexOf(s[1..], c);
      assert s == [s[0]] + s[1..];
      match rest
      case None => None
      case Some(i) =>
        assert s[..i + 1] == [s[0]] + s[1..][..i];
        Some(i + 1)
  }

  /**
   * `token.split('.')[1]`: the text between the first and the second dot
   * (or the end), or nothing when the token holds no dot at all.
   */
  function SecondSegment(token: string): (r: Option<string>)
    ensures r.None? <==> '.' !in token
    ensures r.Some? ==> '.' !in r.value
  {
    match IndexOf(token, '.')
    case None => None
    case Some(i) =>
      var rest := token[i + 1..];
      match IndexOf(rest, '.')
      case None => Some(rest)
      case Some(j) => Some(rest[..j])
  }

  /** The first `c` after a stretch free of `c` is the one that ends it. */
  lemma IndexOfAfter(a: string, c: char, b: string)
    requires c !in a
    ensures IndexOf(a + [c] + b, c) == Some(|a|)
  {
    assert (a + [c] + b)[|a|] == c;
  }

  /** After a dot-free header and its dot, the segment read runs to the next dot or the end. */
  lemma SecondSegmentAfter(header: string, tail: string)
    requires '.' !in header
    ensures '.' in tail ==> SecondSegment(header + "." + tail) == Some(tail[..IndexOf(tail, '.').value])
    ensures '.' !in tail ==> SecondSegment(header + "." + tail) == Some(tail)
  {
    IndexOfAfter(header, '.', tail);
    assert (header + "." + tail)[|header| + 1..] == tail;
  }

  /** For a token shaped `header.payload.signature` the payload segment is the middle one. */
  lemma SecondSegmentOfJwt(header: string, payload: string, signature: string)
    requires '.' !in header && '.' !in payload
    ensures SecondSegment(header + "." + payload + "." + signature) == Some(payload)
    ensures SecondSegment(header + "." + payload) == Some(payload)
  {
    var tail := payload + "." + signature;
    assert header + "." + payload + "." + signature == header + "." + tail;
    SecondSegmentAfter(header, tail);
    IndexOfAfter(payload, '.', signature);
    assert tail[..|payload|] == payload;
    SecondSegmentAfter(header, payload);
  }

  /**
   * What `atob` receives: the payload segment, or the string `"undefined"`
   * that a missing segment is converted to.
   */
  function AtobArgument(token: string): (r: string)
    ensures '.' in token ==> r == SecondSegment(token).value
    ensures '.' !in token ==> r == "undefined"
  {
    SecondSegment(token).GetOr("undefined")
  }

  /** `payload.user.isAdmin = Boolean(payload.user.isAdmin)` on a profile object. */
  function CoerceAdmin(user: map<string, JsValue>): (r: map<string, JsValue>)
    ensures "isAdmin" in r && r["isAdmin"] == Bool(Truthy(Get(Obj(user), "isAdmin")))
    ensures forall k :: k in user && k != "isAdmin" ==> k in r && r[k] == user[k]
    ensures r.Keys == user.Keys + {"isAdmin"}
  {
    user["isAdmin" := Bool(Truthy(Get(Obj(user), "isAdmin")))]
  }

  /** Coercing twice is coercing once: the flag is already a boolean. */
  lemma CoerceAdminIdempotent(user: map<string, JsValue>)
    ensures CoerceAdmin(CoerceAdmin(user)) == CoerceAdmin(user)
  {
    var once := CoerceAdmin(user);
    assert Truthy(once["isAdmin"]) == Truthy(Get(Obj(user), "isAdmin"));
  }

  /**
   * `parseJwt`: the decoded payload with `user.isAdmin` forced to a boolean,
   * or `null` when decoding throws. A truthy `user` that is not an object
   * makes the property assignment throw in strict-mode code, which the
   * `catch` also turns into `null`. A falsy payload is returned as it is.
   */
  function ParseJwt(token: string, decode: string -> Option<JsValue>): (r: JsValue)
    ensures decode(AtobArgument(token)).None? ==> r == Null
    ensures decode(AtobArgument(token)).Some? ==>
      var p := decode(AtobArgument(token)).value;
      && (!(Truthy(p) && Truthy(Get(p, "user"))) ==> r == p)
      && (Truthy(p) && Truthy(Get(p, "user")) && !Get(p, "user").Obj? ==> r == Null)
      && (Truthy(p) && Get(p, "user").Obj? ==>
            r == Obj(p.fields["user" := Obj(CoerceAdmin(Get(p, "user").fields))]))
    ensures Truthy(r) && Truthy(Get(r, "user")) ==>
      var u := Get(r, "user");
      u.Obj? && "isAdmin" in u.fields && u.fields["isAdmin"].Bool?
  {
    match decode(AtobArgument(token))
    case None => Null
    case Some(payload) =>
      if Truthy(payload) && Truthy(Get(payload, "user")) then
        match Get(payload, "user")
        case Obj(fields) =>
          assert payload.Obj?;
          Obj(payload.fields["user" := Obj(CoerceAdmin(fields))])
        case _ => Null
      else payload
  }

  /** `payload && payload.user`: the profile a parsed token offers, if any. */
  function UserOf(payload: JsValue): (r: Option<JsValue>)
    ensures r.Some? <==> Truthy(payload) && Truthy(Get(payload, "user"))
    ensures r.Some? ==> r.value == Get(payload, "user")
  {
    if Truthy(payload) && Truthy(Get(payload, "user")) then Some(Get(payload, "user")) else None
  }

  /** A profile the store may hold: an object whose `isAdmin` is a boolean. */
  predicate WellFormedUser(u: JsValue) {
    u.Obj? && "isAdmin" in u.fields && u.fields["isAdmin"].Bool?
  }

  /** The profile of a token, well-formed whenever there is one. */
  function TokenUser(token: string, decode: string -> Option<JsValue>): (r: Option<JsValue>)
    ensures r.Some? ==> WellFormedUser(r.value)
    ensures decode(AtobArgument(token)).None? ==> r.None?
  {
    UserOf(ParseJwt(token, decode))
  }

  /** `user.isAdmin` for the navigation bar and the route guards; `null` reads as not an admin. */
  predicate IsAdmin(user: Option<JsValue>) {
    user.Some? && Truthy(Get(user.value, "isAdmin"))
  }

  /** The three values the provider exposes; `user == None` is `null`. */
  datatype AuthState = AuthState(isAuthenticated: bool, user: Option<JsValue>, loading: bool)

  /** The first render: not authenticated, no profile, still loading. */
  const Initial := AuthState(false, None, true)

  /** The provider together with the browser storage it reads and writes. */
  datatype Session = Session(auth: AuthState, storage: Storage)

  /**
   * The mount effect: a truthy stored token means authenticated, whether or
   * not it decodes; the profile is taken from it when it has one. Either way
   * loading ends.
   */
  function Startup(st: Storage, decode: string -> Option<JsValue>): (r: AuthState)
    ensures !r.loading
    ensures r.isAuthenticated <==> StoredTruthy(GetItem(st, TokenKey))
    ensures !r.isAuthenticated ==> r.user.None?
    ensures r.isAuthenticated ==> r.user == TokenUser(st[TokenKey], decode)
  {
    var token := GetItem(st, TokenKey);
    if StoredTruthy(token) then
      AuthState(true, TokenUser(token.value, decode), false)
    else
      AuthState(false, None, false)
  }

  /**
   * `login(token)`: stores the token, marks the session authenticated and
   * takes the profile from the token, keeping the previous profile when the
   * token yields none.
   */
  function Login(s: Session, token: string, decode: string -> Option<JsValue>): (r: Session)
    ensures GetItem(r.storage, TokenKey) == Some(token)
    ensures forall k :: k != TokenKey ==> GetItem(r.storage, k) == GetItem(s.storage, k)
    ensures r.auth.isAuthenticated && r.auth.loading == s.auth.loading
    ensures TokenUser(token, decode).Some? ==> r.auth.user == TokenUser(token, decode)
    ensures TokenUser(token, decode).None? ==> r.auth.user == s.auth.user
  {
    var user := match TokenUser(token, decode)
      case Some(u) => Some(u)
      case None => s.auth.user;
    Session(AuthState(true, user, s.auth.loading), s.storage[TokenKey := token])
  }

  /**
   * `login(undefined)`, what a success reply without a token leads to:
   * storage keeps the text `"undefined"` and the session is authenticated.
   * `token.split` throws inside `parseJwt`, whose `catch` returns `null`,
   * so the previous profile stays.
   */
  function LoginUndefined(s: Session): (r: Session)
    ensures GetItem(r.storage, TokenKey) == Some("undefined")
    ensures forall k :: k != TokenKey ==> GetItem(r.storage, k) == GetItem(s.storage, k)
    ensures r.auth.isAuthenticated && r.auth.user == s.auth.user && r.auth.loading == s.auth.loading
  {
    Session(AuthState(true, s.auth.user, s.auth.loading), s.storage[TokenKey := "undefined"])
  }

  /**
   * `atob("undefined")` always throws (nine characters are not base64), and
   * under that decoder `login(undefined)` is `login("undefined")`.
   */
  lemma LoginUndefinedAsLogin(s: Session, decode: string -> Option<JsValue>)
    requires decode("undefined").None?
    ensures LoginUndefined(s) == Login(s, "undefined", decode)
  {
    assert '.' !in "undefined";
    assert TokenUser("undefined", decode).None?;
  }

  /**
   * A reload after `login(undefined)` is authenticated, since the stored
   * text is non-empty, and has no profile when that text does not decode.
   */
  lemma LoginUndefinedThenReload(s: Session, decode: string -> Option<JsValue>)
    ensures Startup(LoginUndefined(s).storage, decode).isAuthenticated
    ensures decode("undefined").None? ==> Startup(LoginUndefined(s).storage, decode).user.None?
  {
    assert '.' !in "undefined";
    assert AtobArgument("undefined") == "undefined";
  }

  /** `logout()`: forgets the token and the profile. */
  function Logout(s: Session): (r: Session)
    ensures TokenKey !in r.storage
    ensures forall k :: k != TokenKey ==> GetItem(r.storage, k) == GetItem(s.storage, k)
    ensures !r.auth.isAuthenticated && r.auth.user.None? && r.auth.loading == s.auth.loading
  {
    Session(AuthState(false, None, s.auth.loading), s.storage - {TokenKey})
  }

  /** The shape every reachable session has. */
  ghost predicate Consistent(s: Session) {
    && (s.auth.user.Some? ==> s.auth.isAuthenticated && WellFormedUser(s.auth.user.value))
    && (s.auth.isAuthenticated ==> TokenKey in s.storage)
  }

  /** Mounting, logging in and logging out all keep a session consistent. */
  lemma TransitionsKeepConsistent(s: Session, st: Storage, token: string, decode: string -> Option<JsValue>)
    requires Consistent(s)
    ensures Consistent(Session(Startup(st, decode), st))
    ensures Consistent(Login(s, token, decode))
    ensures Consistent(LoginUndefined(s))
    ensures Consistent(Logout(s))
  {
  }

  /** Reloading after a logout finds a signed-out, settled session. */
  lemma LogoutThenReload(s: Session, decode: string -> Option<JsValue>)
    ensures Startup(Logout(s).storage, decode) == AuthState(false, None, false)
  {
  }

  /**
   * Reloading after a login is authenticated exactly when the token is not
   * empty, and then restores the profile the login took from the token.
   */
  lemma LoginThenReload(s: Session, token: string, decode: string -> Option<JsValue>)
    ensures Startup(Login(s, token, decode).storage, decode).isAuthenticated <==> token != ""
    ensures token != "" && TokenUser(token, decode).Some? ==>
      Startup(Login(s, token, decode).storage, decode).user == Login(s, token, decode).auth.user
  {
  }

  /**
   * The asymmetry between a login and the reload after it: when the token
   * yields no profile, the login keeps the previous profile but the reload
   * shows none.
   */
  lemma LoginKeepsStaleUser(s: Session, token: string, decode: string -> Option<JsValue>)
    requires token != "" && TokenUser(token, decode).None? && s.auth.user.Some?
    ensures Login(s, token, decode).auth.user == s.auth.user
    ensures Startup(Login(s, token, decode).storage, decode).user.None?
    ensures Startup(Login(s, token, decode).storage, decode).isAuthenticated
  {
  }

  /** Whether a stored token authenticates never depends on how it decodes. */
  lemma AuthenticationIgnoresDecoding(st: Storage, d1: string -> Option<JsValue>, d2: string -> Option<JsValue>)
    ensures Startup(st, d1).isAuthenticated == Startup(st, d2).isAuthenticated
  {
  }

  /** Logging out twice is logging out once. */
  lemma LogoutIdempotent(s: Session)
    ensures Logout(Logout(s)) == Logout(s)
  {
  }

  /** A token whose payload decodes to `{ user: u }` with an object `u` yields `u` with a boolean flag. */
  lemma ParseJwtReadsUser(token: string, decode: string -> Option<JsValue>, fields: map<string, JsValue>)
    requires decode(AtobArgument(token)) == Some(Obj(map["user" := Obj(fields)]))
    ensures TokenUser(token, decode) == Some(Obj(CoerceAdmin(fields)))
    ensures IsAdmin(TokenUser(token, decode)) <==> Truthy(Get(Obj(fields), "isAdmin"))
  {
    var payload := Obj(map["user" := Obj(fields)]);
    assert Get(payload, "user") == Obj(fields);
    var r := ParseJwt(token, decode);
    assert r == Obj(map["user" := Obj(CoerceAdmin(fields))]);
    assert Get(r, "user") == Obj(CoerceAdmin(fields));
  }
}

=== FILE: cart.dfy ===
/**
 * The shopping-cart store (`CartProvider`): an ordered list of lines, each a
 * product snapshot with a quantity, the four mutators `addToCart`,
 * `updateQuantity`, `removeFromCart` and `clearCart`, the derived `getTotal`,
 * and the write-through copy under the `'cart'` key of `localStorage`.
 */
module Cart {
  import opened Options
  import opened Js
  import opened Shop
  import opened Seqs

  /** One cart entry: the product as it was when first added, and how many. */
  datatype Line = Line(product: Product, quantity: int)

  type Cart = seq<Line>

  /** `prev.find(p => p.product._id === id)` finds something. */
  predicate HasId(c: Cart, id: string) {
    exists i :: 0 <= i < |c| && c[i].product.id == id
  }

  /** No two lines share a product `_id`. */
  ghost predicate UniqueIds(c: Cart) {
    forall i, j :: 0 <= i < j < |c| ==> c[i].product.id != c[j].product.id
  }

  /** Every line holds at least one unit. */
  ghost predicate PositiveQuantities(c: Cart) {
    forall i :: 0 <= i < |c| ==> c[i].quantity >= 1
  }

  /** The shape every reachable cart has. */
  ghost predicate Valid(c: Cart) {
    UniqueIds(c) && PositiveQuantities(c)
  }

  function Max(a: int, b: int): int {
    if a >= b then a else b
  }

  /** What a line costs: `product.price * quantity`, also shown per line at checkout. */
  function Subtotal(l: Line): (r: int)
    ensures l.quantity == 1 ==> r == l.product.price
    ensures l.product.price >= 0 && l.quantity >= 1 ==> r >= l.product.price
  {
    l.product.price * l.quantity
  }

  /** `getTotal`: the sum of the line subtotals, `0` for an empty cart. */
  function Total(c: Cart): (t: int)
    ensures |c| == 0 ==> t == 0
    ensures (forall i :: 0 <= i < |c| ==> c[i].product.price >= 0 && c[i].quantity >= 1) ==>
      t >= 0 && forall i :: 0 <= i < |c| ==> t >= c[i].product.price
  {
    if |c| == 0 then 0
    else
      var rest := Total(c[1..]);
      assert forall i :: 1 <= i < |c| ==> c[1..][i - 1] == c[i];
      Subtotal(c[0]) + rest
  }

  /**
   * `prev.map(p => p.product._id === id ? { ...p, quantity: f(p.quantity) } : p)`:
   * rewrites the quantity of every line with that id and nothing else.
   */
  function UpdateWhere(c: Cart, id: string, f: int -> int): (r: Cart)
    ensures |r| == |c|
    ensures forall i :: 0 <= i < |c| ==> r[i].product == c[i].product
    ensures forall i :: 0 <= i < |c| ==>
      r[i].quantity == if c[i].product.id == id then f(c[i].quantity) else c[i].quantity
  {
    seq(|c|, i requires 0 <= i < |c| =>
      if c[i].product.id == id then Line(c[i].product, f(c[i].quantity)) else c[i])
  }

  /** The quantity rewrite of `addToCart`. */
  function Bump(q: int): int {
    q + 1
  }

  /** The quantity rewrite of `updateQuantity`: every matching line gets `n`. */
  function SetTo(n: int): int -> int {
    _ => n
  }

  /** `addToCart`: one more unit of a product already there, else a new last line. */
  function Add(c: Cart, p: Product): (r: Cart)
    ensures !HasId(c, p.id) ==> r == c + [Line(p, 1)]
    ensures HasId(c, p.id) ==> |r| == |c|
    ensures HasId(c, p.id) ==> forall i :: 0 <= i < |c| ==>
      r[i].product == c[i].product &&
      r[i].quantity == c[i].quantity + (if c[i].product.id == p.id then 1 else 0)
  {
    if HasId(c, p.id) then UpdateWhere(c, p.id, Bump) else c + [Line(p, 1)]
  }

  /** `updateQuantity`: the matching line gets `Math.max(1, qty)`; the rest stay as they were. */
  function UpdateQuantity(c: Cart, id: string, qty: int): (r: Cart)
    ensures |r| == |c|
    ensures forall i :: 0 <= i < |c| && c[i].product.id == id ==>
      r[i] == Line(c[i].product, Max(1, qty)) && r[i].quantity >= 1
    ensures forall i :: 0 <= i < |c| && c[i].product.id != id ==> r[i] == c[i]
    ensures !HasId(c, id) ==> r == c
  {
    UpdateWhere(c, id, SetTo(Max(1, qty)))
  }

  /** `removeFromCart`: keeps the lines whose id differs. */
  function Remove(c: Cart, id: string): (r: Cart)
    ensures !HasId(r, id)
    ensures forall l :: l in r <==> l in c && l.product.id != id
    ensures !HasId(c, id) ==> r == c
  {
    var keep := (l: Line) => l.product.id != id;
    var r := Filter(c, keep);
    FilterMembers(c, keep);
    FilterIdentity(c, keep);
    assert forall i :: 0 <= i < |r| ==> r[i] in r;
    r
  }

  // ----- Lemmas about the cart operations -----

  /** The total of a concatenation is the sum of the totals. */
  lemma {:induction false} TotalAppend(a: Cart, b: Cart)
    ensures Total(a + b) == Total(a) + Total(b)
    decreases |a|
  {
    if |a| == 0 {
      assert a + b == b;
    } else {
      assert (a + b)[1..] == a[1..] + b;
      TotalAppend(a[1..], b);
    }
  }

  /** Replacing one line changes the total by the difference of the two subtotals. */
  lemma TotalReplace(c: Cart, k: int, l: Line)
    requires 0 <= k < |c|
    ensures Total(c[k := l]) == Total(c) - Subtotal(c[k]) + Subtotal(l)
  {
    assert c == c[..k] + [c[k]] + c[k + 1..];
    assert c[k := l] == c[..k] + [l] + c[k + 1..];
    TotalAppend(c[..k] + [c[k]], c[k + 1..]);
    TotalAppend(c[..k], [c[k]]);
    TotalAppend(c[..k] + [l], c[k + 1..]);
    TotalAppend(c[..k], [l]);
  }

  /** Changing a line's quantity changes its subtotal by the price times the difference. */
  lemma SubtotalDiff(p: Product, q: int, q': int)
    ensures Subtotal(Line(p, q')) - Subtotal(Line(p, q)) == p.price * (q' - q)
  {
    assert p.price * (q' - q) == p.price * q' - p.price * q;
  }

  /** Setting line `k` to quantity `q` changes the total by its price times the difference. */
  lemma TotalSetQuantity(c: Cart, k: int, q: int)
    requires 0 <= k < |c|
    ensures Total(c[k := Line(c[k].product, q)])
      == Total(c) + c[k].product.price * (q - c[k].quantity)
  {
    TotalReplace(c, k, Line(c[k].product, q));
    SubtotalDiff(c[k].product, c[k].quantity, q);
  }

  /** `TotalReplace` for a cart already known to be the replaced one. */
  lemma TotalReplaceAs(c: Cart, r: Cart, k: int, l: Line)
    requires 0 <= k < |c| && r == c[k := l]
    ensures Total(r) == Total(c) - Subtotal(c[k]) + Subtotal(l)
  {
    TotalReplace(c, k, l);
  }

  /** Any cart equal to `c` with line `k` set to quantity `q` totals as `TotalSetQuantity` says. */
  lemma TotalAfter(c: Cart, r: Cart, k: int, q: int)
    requires 0 <= k < |c| && r == c[k := Line(c[k].product, q)]
    ensures Total(r) == Total(c) + c[k].product.price * (q - c[k].quantity)
  {
    TotalSetQuantity(c, k, q);
  }

  /** With unique ids, the line matching an id is the only one at its index. */
  lemma UniqueIndex(c: Cart, k: int, id: string)
    requires UniqueIds(c) && 0 <= k < |c| && c[k].product.id == id
    ensures forall i :: 0 <= i < |c| && c[i].product.id == id ==> i == k
  {
  }

  /** `UpdateWhere` on an id held by line `k` alone rewrites that line in place. */
  lemma UpdateWhereAt(c: Cart, id: string, f: int -> int, k: int)
    requires 0 <= k < |c| && c[k].product.id == id
    requires forall i :: 0 <= i < |c| && c[i].product.id == id ==> i == k
    ensures UpdateWhere(c, id, f) == c[k := Line(c[k].product, f(c[k].quantity))]
  {
    var r := UpdateWhere(c, id, f);
    var e := c[k := Line(c[k].product, f(c[k].quantity))];
    forall i | 0 <= i < |c| ensures r[i] == e[i] {
      if i != k {
        assert c[i].product.id != id;
      }
    }
  }

  /** Adding a product already in a well-formed cart bumps exactly its line, in place. */
  lemma AddExisting(c: Cart, p: Product, k: int)
    requires UniqueIds(c) && 0 <= k < |c| && c[k].product.id == p.id
    ensures Add(c, p) == c[k := Line(c[k].product, c[k].quantity + 1)]
  {
    UniqueIndex(c, k, p.id);
    assert HasId(c, p.id);
    UpdateWhereAt(c, p.id, Bump, k);
  }

  /** Adding a product already in a well-formed cart adds its snapshot price to the total. */
  lemma AddExistingTotal(c: Cart, p: Product, k: int)
    requires UniqueIds(c) && 0 <= k < |c| && c[k].product.id == p.id
    ensures Total(Add(c, p)) == Total(c) + c[k].product.price
  {
    AddExisting(c, p, k);
    TotalAfter(c, Add(c, p), k, c[k].quantity + 1);
  }

  /** Adding a product not yet in the cart adds its price to the total. */
  lemma AddNewTotal(c: Cart, p: Product)
    requires !HasId(c, p.id)
    ensures Total(Add(c, p)) == Total(c) + p.price
  {
    TotalAppend(c, [Line(p, 1)]);
  }

  /** Adding the same new product twice gives one line of quantity 2, not two lines. */
  lemma AddTwiceMerges(c: Cart, p: Product)
    requires !HasId(c, p.id)
    ensures Add(Add(c, p), p) == c + [Line(p, 2)]
  {
    var c1 := c + [Line(p, 1)];
    assert c1[|c|].product.id == p.id;
    UpdateWhereAt(c1, p.id, Bump, |c|);
    assert c1[|c| := Line(p, 2)] == c + [Line(p, 2)];
  }

  /** `updateQuantity` on a well-formed cart replaces exactly the matching line, in place. */
  lemma UpdateExisting(c: Cart, id: string, qty: int, k: int)
    requires UniqueIds(c) && 0 <= k < |c| && c[k].product.id == id
    ensures UpdateQuantity(c, id, qty) == c[k := Line(c[k].product, Max(1, qty))]
  {
    UniqueIndex(c, k, id);
    UpdateWhereAt(c, id, SetTo(Max(1, qty)), k);
  }

  /** The total trades the line's old subtotal for its new one. */
  lemma UpdateExistingTotal(c: Cart, id: string, qty: int, k: int)
    requires UniqueIds(c) && 0 <= k < |c| && c[k].product.id == id
    ensures Total(UpdateQuantity(c, id, qty))
      == Total(c) - Subtotal(c[k]) + Subtotal(Line(c[k].product, Max(1, qty)))
  {
    UpdateExisting(c, id, qty, k);
    TotalReplaceAs(c, UpdateQuantity(c, id, qty), k, Line(c[k].product, Max(1, qty)));
  }

  /** Removal keeps the survivors in order: it distributes over concatenation. */
  lemma RemoveAppend(a: Cart, b: Cart, id: string)
    ensures Remove(a + b, id) == Remove(a, id) + Remove(b, id)
  {
    FilterAppend(a, b, (l: Line) => l.product.id != id);
  }

  /** Removing the id of the one line between two stretches that lack it joins the stretches. */
  lemma RemoveCut(a: Cart, l: Line, b: Cart, id: string)
    requires l.product.id == id && !HasId(a, id) && !HasId(b, id)
    ensures Remove(a + [l] + b, id) == a + b
  {
    RemoveAppend(a + [l], b, id);
    RemoveAppend(a, [l], id);
    FilterSingleDrop(l, id);
  }

  /** Cutting a line out of a cart takes its subtotal off the total. */
  lemma TotalCut(a: Cart, l: Line, b: Cart)
    ensures Total(a + [l] + b) == Total(a + b) + Subtotal(l)
  {
    TotalAppend(a + [l], b);
    TotalAppend(a, [l]);
    TotalAppend(a, b);
  }

  /** Removing the id of line `k` of a well-formed cart cuts out exactly that line. */
  lemma RemoveExisting(c: Cart, id: string, k: int)
    requires UniqueIds(c) && 0 <= k < |c| && c[k].product.id == id
    ensures Remove(c, id) == c[..k] + c[k + 1..]
    ensures Total(Remove(c, id)) == Total(c) - Subtotal(c[k])
  {
    UniqueIndex(c, k, id);
    var before, after := c[..k], c[k + 1..];
    assert c == before + [c[k]] + after;
    assert !HasId(before, id);
    assert !HasId(after, id) by {
      forall i | 0 <= i < |after| ensures after[i].product.id != id {
        assert after[i] == c[k + 1 + i];
      }
    }
    RemoveCut(before, c[k], after, id);
    TotalCut(before, c[k], after);
  }

  lemma FilterSingleDrop(l: Line, id: string)
    requires l.product.id == id
    ensures Remove([l], id) == []
  {
    assert !(l in Remove([l], id));
  }

  /** Cutting line `k` out of a well-formed cart leaves a well-formed cart. */
  lemma CutValid(c: Cart, k: int)
    requires Valid(c) && 0 <= k < |c|
    ensures Valid(c[..k] + c[k + 1..])
  {
    var r := c[..k] + c[k + 1..];
    forall i | 0 <= i < |r| ensures r[i] == c[if i < k then i else i + 1] {
    }
  }

  /** `addToCart` keeps every quantity at least 1, whatever the ids. */
  lemma AddPositive(c: Cart, p: Product)
    requires PositiveQuantities(c)
    ensures PositiveQuantities(Add(c, p))
  {
    var r := Add(c, p);
    if !HasId(c, p.id) {
      assert forall i :: 0 <= i < |c| ==> r[i] == c[i];
    }
  }

  /** `updateQuantity` leaves every quantity at least 1, from any cart that had that. */
  lemma UpdatePositive(c: Cart, id: string, qty: int)
    requires PositiveQuantities(c)
    ensures PositiveQuantities(UpdateQuantity(c, id, qty))
  {
  }

  /** `removeFromCart` keeps every quantity at least 1, whatever the ids. */
  lemma RemovePositive(c: Cart, id: string)
    requires PositiveQuantities(c)
    ensures PositiveQuantities(Remove(c, id))
  {
    var r := Remove(c, id);
    forall i | 0 <= i < |r| ensures r[i].quantity >= 1 {
      assert r[i] in r;
      var j :| 0 <= j < |c| && c[j] == r[i];
    }
  }

  /** `addToCart` keeps a well-formed cart well-formed. */
  lemma AddValid(c: Cart, p: Product)
    requires Valid(c)
    ensures Valid(Add(c, p))
  {
    if HasId(c, p.id) {
      var k :| 0 <= k < |c| && c[k].product.id == p.id;
      AddExisting(c, p, k);
    } else {
      var r := Add(c, p);
      assert forall i :: 0 <= i < |c| ==> r[i] == c[i];
    }
  }

  /** `updateQuantity` keeps a well-formed cart well-formed, whatever quantity it is given. */
  lemma UpdateValid(c: Cart, id: string, qty: int)
    requires Valid(c)
    ensures Valid(UpdateQuantity(c, id, qty))
  {
    var r := UpdateQuantity(c, id, qty);
    assert forall i :: 0 <= i < |c| ==> r[i].product == c[i].product;
  }

  /** `removeFromCart` keeps a well-formed cart well-formed. */
  lemma RemoveValid(c: Cart, id: string)
    requires Valid(c)
    ensures Valid(Remove(c, id))
  {
    if HasId(c, id) {
      var k :| 0 <= k < |c| && c[k].product.id == id;
      RemoveExisting(c, id, k);
      CutValid(c, k);
    }
  }

  /** The worked example: lines (100 x 2) and (50 x 1) total 250. */
  lemma TotalExample(a: Product, b: Product)
    requires a.price == 100 && b.price == 50
    ensures Total([Line(a, 2), Line(b, 1)]) == 250
    ensures Total([]) == 0
  {
    assert [Line(a, 2), Line(b, 1)][1..] == [Line(b, 1)];
    assert [Line(b, 1)][1..] == [];
    assert Total([Line(b, 1)]) == 50;
  }

  // ----- Persistence under the 'cart' key -----

  /** `JSON.stringify` / `JSON.parse` for carts, supplied from outside. */
  datatype CartCodec = CartCodec(encode: Cart -> string, decode: string -> Option<Cart>)

  /** A codec whose output parses back to its input and is never the empty string. */
  ghost predicate Faithful(codec: CartCodec) {
    forall c :: codec.decode(codec.encode(c)) == Some(c) && codec.encode(c) != ""
  }

  const CartKey := "cart"

  /** The effect on `[cart]`: `localStorage.setItem('cart', JSON.stringify(cart))`. */
  function Persist(st: Storage, c: Cart, codec: CartCodec): (r: Storage)
    ensures GetItem(r, CartKey) == Some(codec.encode(c))
    ensures forall k :: k != CartKey ==> GetItem(r, k) == GetItem(st, k)
  {
    st[CartKey := codec.encode(c)]
  }

  /**
   * The mount effect: a truthy saved string is parsed and becomes the cart;
   * nothing (or `''`) leaves the initial empty cart. `None` stands for the
   * uncaught exception `JSON.parse` raises on a string that is not a cart.
   */
  function Hydrate(st: Storage, codec: CartCodec): (r: Option<Cart>)
    ensures !StoredTruthy(GetItem(st, CartKey)) ==> r == Some([])
    ensures StoredTruthy(GetItem(st, CartKey)) ==> r == codec.decode(st[CartKey])
  {
    var saved := GetItem(st, CartKey);
    if StoredTruthy(saved) then codec.decode(saved.value) else Some([])
  }

  /** The store: the in-memory cart and the browser storage it writes through to. */
  datatype CartStore = CartStore(cart: Cart, storage: Storage)

  /** What the mounted store settles to: the hydrated cart, written back. */
  function Mount(st: Storage, codec: CartCodec): (r: Option<CartStore>)
    ensures Hydrate(st, codec).None? <==> r.None?
    ensures r.Some? ==> r.value.cart == Hydrate(st, codec).value
  {
    match Hydrate(st, codec)
    case None => None
    case Some(c) => Some(CartStore(c, Persist(st, c, codec)))
  }

  datatype CartEvent =
    | AddItem(product: Product)
    | SetQuantity(id: string, qty: int)
    | RemoveItem(id: string)
    | ClearAll

  /**
   * One mutator followed by the persist effect. `clearCart` removes the key,
   * but the cart state changed to a fresh `[]`, so the effect writes `'[]'`
   * back under it.
   */
  function Apply(s: CartStore, e: CartEvent, codec: CartCodec): (r: CartStore)
    ensures r.storage == Persist(s.storage, r.cart, codec)
    ensures e.AddItem? ==> r.cart == Add(s.cart, e.product)
    ensures e.SetQuantity? ==> r.cart == UpdateQuantity(s.cart, e.id, e.qty)
    ensures e.RemoveItem? ==> r.cart == Remove(s.cart, e.id)
    ensures e.ClearAll? ==> r.cart == []
  {
    match e
    case AddItem(p) =>
      var c := Add(s.cart, p);
      CartStore(c, Persist(s.storage, c, codec))
    case SetQuantity(id, qty) =>
      var c := UpdateQuantity(s.cart, id, qty);
      CartStore(c, Persist(s.storage, c, codec))
    case RemoveItem(id) =>
      var c := Remove(s.cart, id);
      CartStore(c, Persist(s.storage, c, codec))
    case ClearAll =>
      var st := s.storage - {CartKey};
      assert Persist(st, [], codec) == Persist(s.storage, [], codec);
      CartStore([], Persist(st, [], codec))
  }

  /** Reloading the page would rebuild exactly the in-memory cart. */
  ghost predicate InSync(s: CartStore, codec: CartCodec) {
    Hydrate(s.storage, codec) == Some(s.cart)
  }

  /**
   * Every event leaves the store in sync with storage, keeps the cart
   * well-formed, and touches no other storage key.
   */
  lemma ApplyInvariant(s: CartStore, e: CartEvent, codec: CartCodec)
    requires Faithful(codec) && Valid(s.cart)
    ensures InSync(Apply(s, e, codec), codec)
    ensures Valid(Apply(s, e, codec).cart)
    ensures forall k :: k != CartKey ==> GetItem(Apply(s, e, codec).storage, k) == GetItem(s.storage, k)
  {
    var r := Apply(s, e, codec);
    assert codec.decode(codec.encode(r.cart)) == Some(r.cart) && codec.encode(r.cart) != "";
    match e
    case AddItem(p) => AddValid(s.cart, p);
    case SetQuantity(id, qty) => UpdateValid(s.cart, id, qty);
    case RemoveItem(id) => RemoveValid(s.cart, id);
    case ClearAll =>
  }

  /** After `clearCart` the cart is empty, and so is the cart a reload rebuilds. */
  lemma ClearThenReload(s: CartStore, codec: CartCodec)
    requires Faithful(codec)
    ensures Apply(s, ClearAll, codec).cart == []
    ensures Hydrate(Apply(s, ClearAll, codec).storage, codec) == Some([])
  {
    assert codec.decode(codec.encode([])) == Some([]) && codec.encode([]) != "";
  }

  /** Mounting over a storage the store wrote itself restores the same cart. */
  lemma RemountRestores(s: CartStore, codec: CartCodec)
    requires InSync(s, codec)
    ensures Mount(s.storage, codec).Some?
    ensures Mount(s.storage, codec).value.cart == s.cart
  {
  }
}

=== FILE: catalog.dfy ===
/**
 * The catalogue page's own logic over the page of products the server sent:
 * the case-insensitive name search, the four sort modes, and the
 * pagination arithmetic behind the page buttons.
 */
module Catalog {
  import opened Text
  import opened Seqs
  import opened Shop

  /** Products per page, sent as `limit` and used for the page count. */
  const PageSize := 8

  /** `Math.ceil(total / PAGE_SIZE)` for the non-negative total the server reports. */
  function TotalPages(total: nat): (n: nat)
    ensures n * PageSize >= total
    ensures n == 0 || (n - 1) * PageSize < total
  {
    (total + PageSize - 1) / PageSize
  }

  /** `Array.from({ length: totalPages }, (_, i) => i + 1)`. */
  function PageButtons(totalPages: nat): (r: seq<int>)
    ensures |r| == totalPages
  {
    seq(totalPages, i => i + 1)
  }

  /** There is a button for page `p` exactly when `1 <= p <= totalPages`, in increasing order. */
  lemma PageButtonsCover(totalPages: nat, p: int)
    ensures p in PageButtons(totalPages) <==> 1 <= p <= totalPages
    ensures forall i, j :: 0 <= i < j < totalPages ==> PageButtons(totalPages)[i] < PageButtons(totalPages)[j]
  {
    if 1 <= p <= totalPages {
      assert PageButtons(totalPages)[p - 1] == p;
    }
  }

  /**
   * `disabled={page === 1}`. On a page of the range this is the same as "a
   * step back would leave the range"; what the two arrows guarantee together
   * is `ArrowsStayInRange`.
   */
  function PrevDisabled(page: int): (r: bool)
    ensures page >= 1 ==> (r <==> page - 1 < 1)
  {
    page == 1
  }

  /**
   * `disabled={page === totalPages}`. On a page of the range this is the
   * same as "a step forward would leave the range"; see `ArrowsStayInRange`.
   */
  function NextDisabled(page: int, totalPages: int): (r: bool)
    ensures page <= totalPages ==> (r <==> page + 1 > totalPages)
  {
    page == totalPages
  }

  /**
   * From a page inside `1..totalPages`, each enabled arrow leads to a page
   * that is again inside the range, and on a single page both are disabled.
   */
  lemma ArrowsStayInRange(page: int, totalPages: nat)
    requires 1 <= page <= totalPages
    ensures !PrevDisabled(page) ==> 1 <= page - 1 <= totalPages
    ensures !NextDisabled(page, totalPages) ==> 1 <= page + 1 <= totalPages
    ensures totalPages == 1 ==> PrevDisabled(page) && NextDisabled(page, totalPages)
  {
  }

  /** `name.toLowerCase().includes(term.toLowerCase())` with `toLowerCase` supplied. */
  predicate NameMatches(p: Product, term: string, lower: string -> string) {
    Includes(lower(p.name), lower(term))
  }

  /** The search box: keeps the products whose name holds the term, ignoring case, in order. */
  function FilterByName(products: seq<Product>, term: string, lower: string -> string): (r: seq<Product>)
    ensures forall p :: p in r <==> p in products && NameMatches(p, term, lower)
    ensures |r| <= |products|
  {
    var keep := (p: Product) => NameMatches(p, term, lower);
    FilterMembers(products, keep);
    Filter(products, keep)
  }

  /** The search keeps the relative order: it distributes over concatenation. */
  lemma FilterByNameKeepsOrder(a: seq<Product>, b: seq<Product>, term: string, lower: string -> string)
    ensures FilterByName(a + b, term, lower) == FilterByName(a, term, lower) + FilterByName(b, term, lower)
  {
    FilterAppend(a, b, (p: Product) => NameMatches(p, term, lower));
  }

  /** An empty search term keeps every product, in its order. */
  lemma EmptyTermKeepsAll(products: seq<Product>, lower: string -> string)
    requires lower("") == ""
    ensures FilterByName(products, "", lower) == products
  {
    var keep := (p: Product) => NameMatches(p, "", lower);
    forall i | 0 <= i < |products| ensures keep(products[i]) {
      IncludesTrivial(lower(products[i].name));
    }
    FilterIdentity(products, keep);
  }

  function Price(p: Product): int { p.price }
  function NegPrice(p: Product): int { -p.price }
  function Pages(p: Product): int { p.pages }
  function NegPages(p: Product): int { -p.pages }

  /** `s` is ordered by `key`, largest first. */
  ghost predicate DescendingBy(s: seq<Product>, key: Product -> int) {
    forall i, j :: 0 <= i < j < |s| ==> key(s[i]) >= key(s[j])
  }

  /**
   * The `filterBy` radio group: `price-low`/`price-high` and
   * `pages-low`/`pages-high` sort with a difference comparator, which the
   * stable sort turns into an ascending order on the key or on its
   * negation; `all` and any other value keep the order as it is.
   */
  function ApplySort(products: seq<Product>, mode: string): (r: seq<Product>)
    ensures multiset(r) == multiset(products)
    ensures mode == "price-low" ==> SortedBy(r, Price)
    ensures mode == "price-high" ==> DescendingBy(r, Price)
    ensures mode == "pages-low" ==> SortedBy(r, Pages)
    ensures mode == "pages-high" ==> DescendingBy(r, Pages)
    ensures mode !in {"price-low", "price-high", "pages-low", "pages-high"} ==> r == products
  {
    if mode == "price-low" then SortBy(products, Price)
    else if mode == "price-high" then
      var r := SortBy(products, NegPrice);
      assert forall i, j :: 0 <= i < j < |r| ==> NegPrice(r[i]) <= NegPrice(r[j]);
      r
    else if mode == "pages-low" then SortBy(products, Pages)
    else if mode == "pages-high" then
      var r := SortBy(products, NegPages);
      assert forall i, j :: 0 <= i < j < |r| ==> NegPages(r[i]) <= NegPages(r[j]);
      r
    else products
  }

  /** Products of the same price keep their relative order under both price sorts. */
  lemma PriceSortsAreStable(products: seq<Product>, k: int)
    ensures Filter(ApplySort(products, "price-low"), KeyIs(Price, k)) == Filter(products, KeyIs(Price, k))
    ensures Filter(ApplySort(products, "price-high"), KeyIs(Price, k)) == Filter(products, KeyIs(Price, k))
  {
    SortStable(products, Price, k);
    SortStableDescending(products, Price, NegPrice, k);
  }

  /** Products of the same page count keep their relative order under both page sorts. */
  lemma PagesSortsAreStable(products: seq<Product>, k: int)
    ensures Filter(ApplySort(products, "pages-low"), KeyIs(Pages, k)) == Filter(products, KeyIs(Pages, k))
    ensures Filter(ApplySort(products, "pages-high"), KeyIs(Pages, k)) == Filter(products, KeyIs(Pages, k))
  {
    SortStable(products, Pages, k);
    SortStableDescending(products, Pages, NegPages, k);
  }

  /** Re-applying a sort mode to its own output changes nothing. */
  lemma ApplySortIdempotent(products: seq<Product>, mode: string)
    ensures ApplySort(ApplySort(products, mode), mode) == ApplySort(products, mode)
  {
    SortIdempotent(products, Price);
    SortIdempotent(products, NegPrice);
    SortIdempotent(products, Pages);
    SortIdempotent(products, NegPages);
  }

  /**
   * What the grid shows: the products the search keeps, in the chosen
   * order, with products of equal key in the order the search left them.
   */
  function Displayed(products: seq<Product>, term: string, mode: string, lower: string -> string): (r: seq<Product>)
    ensures forall p :: p in r <==> p in products && NameMatches(p, term, lower)
    ensures multiset(r) == multiset(FilterByName(products, term, lower))
    ensures forall p :: multiset(r)[p] == if NameMatches(p, term, lower) then multiset(products)[p] else 0
    ensures mode == "price-low" ==> SortedBy(r, Price)
    ensures mode == "price-high" ==> DescendingBy(r, Price)
    ensures mode == "pages-low" ==> SortedBy(r, Pages)
    ensures mode == "pages-high" ==> DescendingBy(r, Pages)
    ensures mode == "price-low" || mode == "price-high" ==>
      forall k :: Filter(r, KeyIs(Price, k)) == Filter(FilterByName(products, term, lower), KeyIs(Price, k))
    ensures mode == "pages-low" || mode == "pages-high" ==>
      forall k :: Filter(r, KeyIs(Pages, k)) == Filter(FilterByName(products, term, lower), KeyIs(Pages, k))
    ensures mode !in {"price-low", "price-high", "pages-low", "pages-high"} ==> r == FilterByName(products, term, lower)
  {
    var found := FilterByName(products, term, lower);
    forall p ensures multiset(found)[p] == if NameMatches(p, term, lower) then multiset(products)[p] else 0 {
      FilterCount(products, (q: Product) => NameMatches(q, term, lower), p);
    }
    var r := ApplySort(found, mode);
    assert forall p :: p in r <==> p in multiset(r);
    forall k
      ensures Filter(ApplySort(found, "price-low"), KeyIs(Price, k)) == Filter(found, KeyIs(Price, k))
      ensures Filter(ApplySort(found, "price-high"), KeyIs(Price, k)) == Filter(found, KeyIs(Price, k))
      ensures Filter(ApplySort(found, "pages-low"), KeyIs(Pages, k)) == Filter(found, KeyIs(Pages, k))
      ensures Filter(ApplySort(found, "pages-high"), KeyIs(Pages, k)) == Filter(found, KeyIs(Pages, k))
    {
      PriceSortsAreStable(found, k);
      PagesSortsAreStable(found, k);
    }
    r
  }
}

=== FILE: checkout.dfy ===
/**
 * The checkout page's `handleOrder`: two guards (an empty cart, then a
 * missing payment method), the order payload built from the cart, the
 * bearer header read from storage, and what each kind of reply does to
 * the page and to the cart.
 */
module Checkout {
  import opened Options
  import opened Text
  import opened Js
  import opened Shop
  import opened Cart
  import opened Http
  import Auth

  const EmptyCartError := "El carrito está vacío."
  const PaymentMethodError := "Selecciona un método de pago."
  const InvalidOrderError := "No se pudo crear el pedido. Verifica los datos e intenta nuevamente."
  const OrderUnexpectedError := "Ocurrió un error inesperado al crear el pedido. Intenta nuevamente o contacta soporte."

  /** One entry of the payload's `products`: the product `_id` and the quantity. */
  datatype OrderItem = OrderItem(product: string, quantity: int)

  /** The JSON body of `POST /api/pedidos`; `user` is `user?.id` as the page reads it. */
  datatype Order = Order(user: JsValue, products: seq<OrderItem>, total: int, paymentMethod: string)

  /** The request sent: its `Authorization` header and its body. */
  datatype OrderRequest = OrderRequest(authorization: string, order: Order)

  /** `cart.map(({ product, quantity }) => ({ product: product._id, quantity }))`. */
  function OrderItems(c: Cart): (r: seq<OrderItem>)
    ensures |r| == |c|
    ensures forall i :: 0 <= i < |c| ==> r[i] == OrderItem(c[i].product.id, c[i].quantity)
  {
    seq(|c|, i requires 0 <= i < |c| => OrderItem(c[i].product.id, c[i].quantity))
  }

  /** A well-formed cart becomes an order naming each product once, each with a positive quantity. */
  lemma OrderItemsWellFormed(c: Cart)
    requires Valid(c)
    ensures forall i, j :: 0 <= i < j < |c| ==> OrderItems(c)[i].product != OrderItems(c)[j].product
    ensures forall i :: 0 <= i < |c| ==> OrderItems(c)[i].quantity >= 1
  {
  }

  /** `Bearer ${localStorage.getItem('token')}`: a missing token is written as `null`. */
  function BearerHeader(st: Storage): (r: string)
    ensures Auth.TokenKey in st ==> r == "Bearer " + st[Auth.TokenKey]
    ensures Auth.TokenKey !in st ==> r == "Bearer null"
    ensures StartsWith(r, "Bearer ")
  {
    "Bearer " + GetItem(st, Auth.TokenKey).GetOr("null")
  }

  /** The page after `handleOrder`: its two error texts, the request sent if any, and whether the order went through. */
  datatype Outcome = Outcome(error: string, paymentError: string, sent: Option<OrderRequest>, success: bool)

  /** The error text for a refused order, keyed on the words "Verifica los datos". */
  function OrderErrorMessage(msg: Option<string>): (r: string)
    ensures r != ""
    ensures msg.Some? && Includes(msg.value, "Verifica los datos") ==> r == InvalidOrderError
    ensures msg.Some? && msg.value != "" && !Includes(msg.value, "Verifica los datos") ==> r == msg.value
    ensures msg.None? || msg.value == "" ==> r == OrderUnexpectedError
  {
    ServerMessageNonEmpty(msg, "Verifica los datos", InvalidOrderError, OrderUnexpectedError);
    ServerMessage(msg, "Verifica los datos", InvalidOrderError, OrderUnexpectedError)
  }

  /**
   * The error a sent order shows when it fails: the server's message mapped
   * when a refusal carries a readable body, the connection text when the
   * server cannot be reached or its refusal cannot be read.
   */
  function FailureText(reply: Reply): (r: string)
    ensures r != ""
    ensures reply.Unreachable? || reply.body.None? ==> r == ConnectionError
    ensures reply.Response? && reply.body.Some? ==> r == OrderErrorMessage(reply.body.value.msg)
  {
    match reply
    case Unreachable => ConnectionError
    case Response(_, body) =>
      match body
      case None => ConnectionError
      case Some(b) => OrderErrorMessage(b.msg)
  }

  /**
   * `handleOrder` with the server's reply as a parameter: the empty-cart
   * guard runs first, then the payment-method guard; otherwise the order is
   * sent and the reply decides between success and an error text.
   */
  function PlaceOrder(c: Cart, paymentMethod: string, user: Option<JsValue>, st: Storage, reply: Reply): (r: Outcome)
    ensures |c| == 0 ==> r == Outcome(EmptyCartError, "", None, false)
    ensures |c| > 0 && paymentMethod == "" ==> r == Outcome("", PaymentMethodError, None, false)
    ensures r.sent.Some? <==> |c| > 0 && paymentMethod != ""
    ensures r.sent.Some? ==>
      && r.sent.value.authorization == BearerHeader(st)
      && r.sent.value.order.products == OrderItems(c)
      && r.sent.value.order.total == Total(c)
      && r.sent.value.order.paymentMethod == paymentMethod
      && r.sent.value.order.user == GetOpt(user, "id")
    ensures r.success <==> r.sent.Some? && reply.Response? && reply.ok
    ensures r.success ==> r.error == "" && r.paymentError == ""
    ensures r.sent.Some? && !r.success ==> r.error != ""
    ensures r.sent.Some? && !r.success ==> r.error == FailureText(reply) && r.paymentError == ""
  {
    if |c| == 0 then Outcome(EmptyCartError, "", None, false)
    else if paymentMethod == "" then Outcome("", PaymentMethodError, None, false)
    else
      var request := OrderRequest(BearerHeader(st), Order(GetOpt(user, "id"), OrderItems(c), Total(c), paymentMethod));
      if reply.Response? && reply.ok then Outcome("", "", Some(request), true)
      else Outcome(FailureText(reply), "", Some(request), false)
  }

  /**
   * The checkout as the shopper lives it, over the one `localStorage` that
   * holds both the cart and the token the order is sent with: the cart
   * store is cleared after a successful order, and left exactly as it was
   * on every other path.
   */
  function OrderAndClear(s: CartStore, paymentMethod: string, user: Option<JsValue>,
                         reply: Reply, codec: CartCodec): (r: CartStore)
    ensures PlaceOrder(s.cart, paymentMethod, user, s.storage, reply).success ==>
      r.cart == [] && r.storage == Persist(s.storage, [], codec)
    ensures !PlaceOrder(s.cart, paymentMethod, user, s.storage, reply).success ==> r == s
  {
    if PlaceOrder(s.cart, paymentMethod, user, s.storage, reply).success then Apply(s, ClearAll, codec) else s
  }

  /** After a successful order, a reload of the page rebuilds the empty cart too. */
  lemma OrderThenReload(s: CartStore, paymentMethod: string, user: Option<JsValue>, reply: Reply, codec: CartCodec)
    requires Faithful(codec)
    requires PlaceOrder(s.cart, paymentMethod, user, s.storage, reply).success
    ensures Hydrate(OrderAndClear(s, paymentMethod, user, reply, codec).storage, codec) == Some([])
  {
    ClearThenReload(s, codec);
  }

  /** The radio buttons only ever choose these two methods, so the payment guard never fires from the page. */
  lemma PaymentGuardUnreachableFromPage(c: Cart, choice: bool, user: Option<JsValue>, st: Storage, reply: Reply)
    requires |c| > 0
    ensures PlaceOrder(c, if choice then "efectivo" else "mercadopago", user, st, reply).sent.Some?
  {
  }

  /** The left fold `reduce((total, item) => total + ..., 0)` over a list of numbers. */
  function SumLeft(xs: seq<int>): (r: int)
    ensures |xs| == 1 ==> r == xs[0]
    ensures (forall i :: 0 <= i < |xs| ==> xs[i] >= 0) ==> r >= 0
  {
    if |xs| == 0 then 0 else SumLeft(xs[..|xs| - 1]) + xs[|xs| - 1]
  }

  /** Folding from the left agrees with peeling off the first element instead. */
  lemma {:induction false} SumLeftFirst(xs: seq<int>)
    requires |xs| > 0
    ensures SumLeft(xs) == xs[0] + SumLeft(xs[1..])
    decreases |xs|
  {
    if |xs| >= 2 {
      var init := xs[..|xs| - 1];
      SumLeftFirst(init);
      assert init[1..] == xs[1..][..|xs| - 2];
    }
  }

  /** The subtotal shown beside each line, `product.price * quantity`. */
  function LineSubtotals(c: Cart): (r: seq<int>)
    ensures |r| == |c|
    ensures forall i :: 0 <= i < |c| ==> r[i] == c[i].product.price * c[i].quantity
  {
    seq(|c|, i requires 0 <= i < |c| => Subtotal(c[i]))
  }

  /** The displayed line subtotals add up, left to right, to the total the order carries. */
  lemma {:induction false} SubtotalsAddUpToTotal(c: Cart)
    ensures SumLeft(LineSubtotals(c)) == Total(c)
    decreases |c|
  {
    if |c| > 0 {
      var init := c[..|c| - 1];
      SubtotalsAddUpToTotal(init);
      assert LineSubtotals(c)[..|c| - 1] == LineSubtotals(init);
      assert c == init + [c[|c| - 1]];
      TotalAppend(init, [c[|c| - 1]]);
    }
  }
}

=== FILE: http.dfy ===
/**
 * What the forms and the checkout page see of a server reply, and the one
 * way all three turn an error reply into the message they display.
 */
module Http {
  import opened Options
  import opened Text

  /**
   * The decoded reply body: its `msg` and `token` fields when they hold
   * strings (`None` is `undefined`).
   */
  datatype Body = Body(msg: Option<string>, token: Option<string>)

  /**
   * How a request ended: `fetch` rejected (no connection), or a response
   * arrived with its `ok` flag and a body that `res.json()` either decoded
   * or failed on (`None`).
   */
  datatype Reply = Unreachable | Response(ok: bool, body: Option<Body>)

  /** Shown whenever the request or the reading of its reply throws. */
  const ConnectionError := "No se pudo conectar con el servidor. Verifica tu conexión a internet."

  /** The generic fallback of the two forms. */
  const UnexpectedError := "Ocurrió un error inesperado. Intenta nuevamente o contacta soporte."

  /**
   * `data.msg?.includes(keyword) ? fixed : data.msg ? data.msg : generic`:
   * a message mentioning the keyword is replaced by a fixed text, any other
   * non-empty message is shown as it is, and an absent or empty one gives
   * the generic text.
   */
  function ServerMessage(msg: Option<string>, keyword: string, fixed: string, generic: string): (r: string)
    ensures msg.Some? && Includes(msg.value, keyword) ==> r == fixed
    ensures msg.Some? && msg.value != "" && !Includes(msg.value, keyword) ==> r == msg.value
    ensures msg.None? || (msg.value == "" && !Includes("", keyword)) ==> r == generic
  {
    match msg
    case Some(m) =>
      if Includes(m, keyword) then fixed
      else if m != "" then m
      else generic
    case None => generic
  }

  /** With non-empty fixed and generic texts the displayed message is never blank. */
  lemma ServerMessageNonEmpty(msg: Option<string>, keyword: string, fixed: string, generic: string)
    requires fixed != "" && generic != ""
    ensures ServerMessage(msg, keyword, fixed, generic) != ""
  {
  }

  /** A message is echoed exactly when it is non-empty and does not mention the keyword. */
  lemma ServerMessageEchoes(m: string, keyword: string, fixed: string, generic: string)
    requires m != fixed && m != generic
    ensures ServerMessage(Some(m), keyword, fixed, generic) == m <==> m != "" && !Includes(m, keyword)
  {
  }
}

=== FILE: js.dfy ===
/**
 * The slice of the JavaScript value world the storefront touches: decoded
 * JSON values with ECMAScript truthiness, and the browser's `localStorage`.
 */
module Js {
  import opened Options

  /**
   * A JavaScript value as `JSON.parse` can produce it, plus `undefined` for a
   * missing property. Arrays are not distinguished from other objects.
   */
  datatype JsValue =
    | Undefined
    | Null
    | Bool(b: bool)
    | Num(x: real)
    | NaN
    | Str(s: string)
    | Obj(fields: map<string, JsValue>)

  /** ECMAScript ToBoolean: `undefined`, `null`, `false`, `0`, `NaN` and `''` are falsy. */
  function Truthy(v: JsValue): (r: bool)
    ensures !r <==> v == Undefined || v == Null || v == Bool(false) || v == Num(0.0) || v == NaN || v == Str("")
  {
    match v
    case Undefined => false
    case Null => false
    case Bool(b) => b
    case Num(x) => x != 0.0
    case NaN => false
    case Str(s) => s != ""
    case Obj(_) => true
  }

  /** Property access `v.k`; a missing property, or any property of a primitive, reads as `undefined`. */
  function Get(v: JsValue, k: string): JsValue {
    if v.Obj? && k in v.fields then v.fields[k] else Undefined
  }

  /** Optional chaining `v?.k` over a possibly absent object. */
  function GetOpt(v: Option<JsValue>, k: string): JsValue {
    match v
    case Some(o) => Get(o, k)
    case None => Undefined
  }

  /** `window.localStorage`: string keys to string values. */
  type Storage = map<string, string>

  /** `localStorage.getItem(k)`: `null`, modelled as `None`, when the key is absent. */
  function GetItem(st: Storage, k: string): (r: Option<string>)
    ensures r.None? <==> k !in st
    ensures r.Some? ==> r.value == st[k]
  {
    if k in st then Some(st[k]) else None
  }

  /** A stored string is truthy (`if (item)`) exactly when present and non-empty. */
  predicate StoredTruthy(item: Option<string>) {
    item.Some? && item.value != ""
  }
}

=== FILE: login.dfy ===
/**
 * The sign-in form: its two field rules, the submit that sends nothing
 * while a field has a message, and the hand-over of the returned token to
 * the authentication store when the server accepts the credentials.
 */
module Login {
  import opened Options
  import opened Text
  import opened Js
  import opened Validation
  import opened Http
  import Auth

  const PasswordRequired := "La contraseña es obligatoria."
  const BadCredentials := "El email o la contraseña no son correctos. ¿Olvidaste tu contraseña?"
  const LoggedIn := "¡Login exitoso!"

  datatype LoginForm = LoginForm(email: string, password: string)

  /** `validate(field, value)`: the shared e-mail rule, and a password that must not be empty. */
  function FieldError(field: string, value: string): (msg: string)
    ensures field == "email" ==> msg == EmailFieldError(value)
    ensures field == "password" ==> msg == (if value == "" then PasswordRequired else "")
    ensures field != "email" && field != "password" ==> msg == ""
  {
    if field == "email" then EmailFieldError(value)
    else if field == "password" then (if value == "" then PasswordRequired else "")
    else ""
  }

  /**
   * Both fields free of messages: exactly when the e-mail matches the
   * pattern and a password was typed, one character being enough.
   */
  function AllValid(f: LoginForm): (r: bool)
    ensures r <==> RegexEmail(f.email) && f.password != ""
  {
    FieldError("email", f.email) == "" && FieldError("password", f.password) == ""
  }

  /** After a submit: whether the request went out, the banner (`None` when unchanged), and the session. */
  datatype Outcome = Outcome(sent: bool, mensaje: Option<string>, session: Auth.Session)

  /** The banner for refused credentials, keyed on the word "incorrectos". */
  function LoginErrorMessage(msg: Option<string>): (r: string)
    ensures r != ""
    ensures msg.Some? && Includes(msg.value, "incorrectos") ==> r == BadCredentials
    ensures msg.Some? && msg.value != "" && !Includes(msg.value, "incorrectos") ==> r == msg.value
    ensures msg.None? || msg.value == "" ==> r == UnexpectedError
  {
    ServerMessageNonEmpty(msg, "incorrectos", BadCredentials, UnexpectedError);
    ServerMessage(msg, "incorrectos", BadCredentials, UnexpectedError)
  }

  /**
   * `handleSubmit` with the server's reply as a parameter. The body is read
   * before `ok` is looked at, so an unreadable body is a connection error
   * even on success. An accepted reply calls `login(data.token)`; a reply
   * without a token calls `login(undefined)`.
   */
  function Submit(f: LoginForm, reply: Reply, s: Auth.Session, decode: string -> Option<JsValue>): (r: Outcome)
    ensures r.sent <==> AllValid(f)
    ensures !r.sent ==> r.mensaje.None? && r.session == s
    ensures r.sent && reply.Response? && reply.ok && reply.body.Some? ==> r.mensaje == Some(LoggedIn)
    ensures r.sent && reply.Response? && reply.ok && reply.body.Some? && reply.body.value.token.Some? ==>
      r.session == Auth.Login(s, reply.body.value.token.value, decode)
    ensures r.sent && reply.Response? && reply.ok && reply.body.Some? && reply.body.value.token.None? ==>
      r.session == Auth.LoginUndefined(s)
    ensures r.sent && (reply.Unreachable? || reply.body.None?) ==>
      r.mensaje == Some(ConnectionError) && r.session == s
    ensures r.sent && reply.Response? && !reply.ok && reply.body.Some? ==>
      r.mensaje == Some(LoginErrorMessage(reply.body.value.msg)) && r.session == s
  {
    if !AllValid(f) then Outcome(false, None, s)
    else match reply
      case Unreachable => Outcome(true, Some(ConnectionError), s)
      case Response(ok, body) =>
        match body
        case None => Outcome(true, Some(ConnectionError), s)
        case Some(b) =>
          if ok then
            match b.token
            case Some(t) => Outcome(true, Some(LoggedIn), Auth.Login(s, t, decode))
            case None => Outcome(true, Some(LoggedIn), Auth.LoginUndefined(s))
          else Outcome(true, Some(LoginErrorMessage(b.msg)), s)
  }

  /** The store changes exactly when the server accepted the credentials with a readable reply. */
  lemma SessionChangesOnlyOnAcceptance(f: LoginForm, reply: Reply, s: Auth.Session, decode: string -> Option<JsValue>)
    requires !s.auth.isAuthenticated
    ensures Submit(f, reply, s, decode).session != s <==>
      AllValid(f) && reply.Response? && reply.ok && reply.body.Some?
    ensures Submit(f, reply, s, decode).session.auth.isAuthenticated <==>
      AllValid(f) && reply.Response? && reply.ok && reply.body.Some?
  {
  }

  /**
   * A success reply that carries no token still signs the user in, keeping
   * the profile the session had. The text `"undefined"` stored in its place
   * keeps the session signed in across a reload, with no profile since
   * `atob("undefined")` throws.
   */
  lemma MissingTokenStillSignsIn(f: LoginForm, msg: Option<string>, s: Auth.Session,
                                  decode: string -> Option<JsValue>)
    requires AllValid(f)
    ensures var r := Submit(f, Response(true, Some(Body(msg, None))), s, decode);
      && r.session.auth.isAuthenticated
      && r.session.auth.user == s.auth.user
      && GetItem(r.session.storage, Auth.TokenKey) == Some("undefined")
      && Auth.Startup(r.session.storage, decode).isAuthenticated
      && (decode("undefined").None? ==> Auth.Startup(r.session.storage, decode).user.None?)
  {
    Auth.LoginUndefinedThenReload(s, decode);
  }
}

=== FILE: options.dfy ===
/**
 * The optional value used wherever the storefront reads something that may be
 * missing: a localStorage slot, a reply field, a decoded profile.
 */
module Options {

  datatype Option<+T> = None | Some(value: T) {

    /** The wrapped value, or `default` when there is none (JavaScript's `x ?? d`). */
    function GetOr(default: T): T {
      match this
      case Some(v) => v
      case None => default
    }
  }
}

=== FILE: register.dfy ===
/**
 * The sign-up form: per-field validation messages, the submit that sends
 * nothing while any field has a message, and what each kind of server reply
 * does to the banner message and to the form.
 */
module Register {
  import opened Options
  import opened Text
  import opened Validation
  import opened Http

  const NameRequired := "El nombre es obligatorio."
  const NameTooShort := "Debe tener al menos 3 caracteres."
  const PasswordRequired := "La contraseña es obligatoria."
  const PasswordTooShort := "Debe tener al menos 6 caracteres."
  const PhoneInvalid := "Solo números, entre 7 y 15 dígitos."
  const DuplicateEmail := "Ya existe una cuenta registrada con ese email. ¿Ya tienes cuenta? Inicia sesión."
  const Registered := "¡Registro exitoso! Redirigiendo al login..."

  /** The five inputs, all strings. */
  datatype RegisterForm = RegisterForm(nombre: string, email: string, password: string, carrera: string, telefono: string)

  /** The form as first shown and as reset after a successful sign-up. */
  const EmptyForm := RegisterForm("", "", "", "", "")

  /**
   * `validate(field, value)`: the message for one field, `''` when it is
   * fine. Lengths are JavaScript lengths, in UTF-16 code units.
   */
  function FieldError(field: string, value: string): (msg: string)
    ensures field == "nombre" ==>
      msg == (if Trim(value) == "" then NameRequired
              else if Utf16Length(Trim(value)) < 3 then NameTooShort else "")
    ensures field == "email" ==> msg == EmailFieldError(value)
    ensures field == "password" ==>
      msg == (if value == "" then PasswordRequired
              else if Utf16Length(value) < 6 then PasswordTooShort else "")
    ensures field == "telefono" ==> msg == (if ValidatePhone(value) then "" else PhoneInvalid)
    ensures field !in {"nombre", "email", "password", "telefono"} ==> msg == ""
  {
    if field == "nombre" then
      if Trim(value) == "" then NameRequired
      else if Utf16Length(Trim(value)) < 3 then NameTooShort
      else ""
    else if field == "email" then EmailFieldError(value)
    else if field == "password" then
      if value == "" then PasswordRequired
      else if Utf16Length(value) < 6 then PasswordTooShort
      else ""
    else if field == "telefono" then
      if !ValidatePhone(value) then PhoneInvalid else ""
    else ""
  }

  /** What each field must be for the form to be accepted, stated without the messages. */
  ghost predicate Acceptable(field: string, value: string) {
    if field == "nombre" then Utf16Length(Trim(value)) >= 3
    else if field == "email" then RegexEmail(value)
    else if field == "password" then Utf16Length(value) >= 6
    else if field == "telefono" then
      value == "" || (7 <= |value| <= 15 && forall k :: 0 <= k < |value| ==> IsDigit(value[k]))
    else true
  }

  /** A field has no message exactly when its value is acceptable. */
  lemma FieldErrorEmptyIffAcceptable(field: string, value: string)
    ensures FieldError(field, value) == "" <==> Acceptable(field, value)
  {
  }

  /**
   * The submit's pass over `Object.entries(form)`: every one of the five
   * fields is free of messages.
   */
  function AllValid(f: RegisterForm): (r: bool)
    ensures r <==>
      && Utf16Length(Trim(f.nombre)) >= 3 && RegexEmail(f.email) && Utf16Length(f.password) >= 6
      && ValidatePhone(f.telefono)
  {
    FieldErrorEmptyIffAcceptable("nombre", f.nombre);
    FieldErrorEmptyIffAcceptable("email", f.email);
    FieldErrorEmptyIffAcceptable("password", f.password);
    FieldErrorEmptyIffAcceptable("telefono", f.telefono);
    && FieldError("nombre", f.nombre) == ""
    && FieldError("email", f.email) == ""
    && FieldError("password", f.password) == ""
    && FieldError("carrera", f.carrera) == ""
    && FieldError("telefono", f.telefono) == ""
  }

  /**
   * After a submit: whether the request went out, the
   * banner message (`None` when left as it was), the form, and where the
   * page navigates to.
   */
  datatype Outcome = Outcome(sent: bool, mensaje: Option<string>, form: RegisterForm, redirect: Option<string>)

  /** The banner for a refused sign-up, keyed on the word "email". */
  function RegisterErrorMessage(msg: Option<string>): (r: string)
    ensures r != ""
    ensures msg.Some? && Includes(msg.value, "email") ==> r == DuplicateEmail
    ensures msg.Some? && msg.value != "" && !Includes(msg.value, "email") ==> r == msg.value
    ensures msg.None? || msg.value == "" ==> r == UnexpectedError
  {
    ServerMessageNonEmpty(msg, "email", DuplicateEmail, UnexpectedError);
    ServerMessage(msg, "email", DuplicateEmail, UnexpectedError)
  }

  /** `handleSubmit` with the server's reply as a parameter. */
  function Submit(f: RegisterForm, reply: Reply): (r: Outcome)
    ensures r.sent <==> AllValid(f)
    ensures !r.sent ==> r.mensaje.None? && r.form == f && r.redirect.None?
    ensures r.sent && reply.Response? && reply.ok && reply.body.Some? ==>
      r.mensaje == Some(Registered) && r.form == EmptyForm && r.redirect == Some("/login")
    ensures r.sent && (reply.Unreachable? || reply.body.None?) ==>
      r.mensaje == Some(ConnectionError) && r.form == f && r.redirect.None?
    ensures r.sent && reply.Response? && !reply.ok && reply.body.Some? ==>
      r.mensaje == Some(RegisterErrorMessage(reply.body.value.msg)) && r.form == f && r.redirect.None?
  {
    if !AllValid(f) then Outcome(false, None, f, None)
    else match reply
      case Unreachable => Outcome(true, Some(ConnectionError), f, None)
      case Response(ok, body) =>
        match body
        case None => Outcome(true, Some(ConnectionError), f, None)
        case Some(b) =>
          if ok then Outcome(true, Some(Registered), EmptyForm, Some("/login"))
          else Outcome(true, Some(RegisterErrorMessage(b.msg)), f, None)
  }

  /** A form that goes out has every field acceptable, and the career is never checked. */
  lemma SentFormsAreAcceptable(f: RegisterForm, reply: Reply)
    requires Submit(f, reply).sent
    ensures Acceptable("nombre", f.nombre) && Acceptable("email", f.email)
    ensures Acceptable("password", f.password) && Acceptable("telefono", f.telefono)
    ensures Utf16Length(Trim(f.nombre)) >= 3 && RegexEmail(f.email) && Utf16Length(f.password) >= 6
  {
    FieldErrorEmptyIffAcceptable("nombre", f.nombre);
    FieldErrorEmptyIffAcceptable("email", f.email);
    FieldErrorEmptyIffAcceptable("password", f.password);
    FieldErrorEmptyIffAcceptable("telefono", f.telefono);
  }

  /** The form a successful sign-up leaves behind cannot be sent again as it is. */
  lemma ResetFormIsRefused(reply: Reply)
    ensures !Submit(EmptyForm, reply).sent
    ensures FieldError("nombre", EmptyForm.nombre) == NameRequired
  {
    assert Trim("") == "" by { TrimEmptyIffBlank(""); }
    assert FieldError("nombre", EmptyForm.nombre) == NameRequired;
  }
}

=== FILE: routing.dfy ===
/**
 * The access rules of the single-page application: the `RequireAuth` guard
 * around the signed-in pages, the redirect chain `MainApp` applies before
 * any route is matched, the route table, the navigation-bar rule and the
 * category names of the catalogue route. Each is a function of the session
 * as the pages read it and of the current path.
 */
module Routing {
  import opened Options
  import opened Js
  import opened Auth

  /** What a guard or a page yields: `null`, a `<Navigate>`, or its content. */
  datatype Decision = Nothing | Redirect(to: string) | Render

  /** `loading`, `isAuthenticated` and the truthiness of `user?.isAdmin`. */
  datatype View = View(loading: bool, isAuthenticated: bool, isAdmin: bool)

  /** The view a page takes of the authentication store. */
  function ViewOf(a: AuthState): (v: View)
    ensures v.loading == a.loading && v.isAuthenticated == a.isAuthenticated
    ensures v.isAdmin <==> a.user.Some? && Truthy(Get(a.user.value, "isAdmin"))
  {
    View(a.loading, a.isAuthenticated, IsAdmin(a.user))
  }

  const LoginPath := "/login"
  const RegisterPath := "/registro"
  const CategoriesPath := "/seleccionar-categoria"
  const AdminPath := "/admin"
  const RootPath := "/"

  /**
   * `RequireAuth`: nothing while loading; then sign-in first, then the
   * admin-only check, then the shopper-only check; otherwise the children.
   */
  function RequireAuth(v: View, adminOnly: bool): (d: Decision)
    ensures v.loading ==> d == Nothing
    ensures !v.loading && !v.isAuthenticated ==> d == Redirect(LoginPath)
    ensures !v.loading && v.isAuthenticated ==>
      d == (if adminOnly == v.isAdmin then Render
            else if adminOnly then Redirect(CategoriesPath)
            else Redirect(AdminPath))
  {
    if v.loading then Nothing
    else if !v.isAuthenticated then Redirect(LoginPath)
    else if adminOnly && !v.isAdmin then Redirect(CategoriesPath)
    else if !adminOnly && v.isAdmin then Redirect(AdminPath)
    else Render
  }

  /**
   * The redirect chain at the top of `MainApp`, first match wins: signed-out
   * users go to the login page unless they are on it or on registration;
   * admins go to the admin panel; shoppers are sent from `/admin`, `/` and
   * `/login` to the category choice. Nothing happens while loading.
   */
  function MainRedirect(v: View, path: string): (r: Option<string>)
    ensures v.loading ==> r.None?
    ensures r.Some? ==> r.value in {LoginPath, AdminPath, CategoriesPath}
    ensures !v.loading && !v.isAuthenticated ==>
      (r.Some? <==> path != LoginPath && path != RegisterPath) && (r.Some? ==> r.value == LoginPath)
    ensures !v.loading && v.isAuthenticated && v.isAdmin ==>
      r == if path == AdminPath then None else Some(AdminPath)
    ensures !v.loading && v.isAuthenticated && !v.isAdmin ==>
      r == if path in {AdminPath, RootPath, LoginPath} then Some(CategoriesPath) else None
  {
    if v.loading then None
    else if !v.isAuthenticated && path != LoginPath && path != RegisterPath then Some(LoginPath)
    else if v.isAuthenticated && v.isAdmin && path != AdminPath then Some(AdminPath)
    else if v.isAuthenticated && !v.isAdmin && (path == AdminPath || path == RootPath) then Some(CategoriesPath)
    else if v.isAuthenticated && !v.isAdmin && path == LoginPath then Some(CategoriesPath)
    else None
  }

  /** Following a top-level redirect never triggers another one. */
  lemma MainRedirectNoLoop(v: View, path: string)
    requires MainRedirect(v, path).Some?
    ensures MainRedirect(v, MainRedirect(v, path).value).None?
  {
  }

  /** What a route element is: an open page, a guarded page, or a bounce to the login page. */
  datatype RouteElement = Public | Guarded(adminOnly: bool) | ToLogin

  /** A `:param` segment matches one non-empty run of characters without `/`. */
  predicate ParamRoute(path: string, prefix: string) {
    |prefix| < |path| && path[..|prefix|] == prefix && '/' !in path[|prefix|..]
  }

  /** The `<Routes>` table; `/` and every unmatched path bounce to the login page. */
  function MatchRoute(path: string): (e: RouteElement)
    ensures e.Public? <==> path == LoginPath || path == RegisterPath
    ensures e == Guarded(true) <==> path == AdminPath
    ensures path == RootPath ==> e == ToLogin
  {
    if path == LoginPath || path == RegisterPath then Public
    else if path == AdminPath then Guarded(true)
    else if path in {CategoriesPath, "/carrito", "/cuenta", "/checkout"} then Guarded(false)
    else if ParamRoute(path, "/catalogo/") || ParamRoute(path, "/producto/") then Guarded(false)
    else ToLogin
  }

  /** The whole page at `path`: the top-level redirect if any, else the matched route. */
  function Page(v: View, path: string): (d: Decision)
    ensures MainRedirect(v, path).Some? ==> d == Redirect(MainRedirect(v, path).value)
    ensures d == Nothing ==> v.loading
  {
    match MainRedirect(v, path)
    case Some(to) => Redirect(to)
    case None =>
      match MatchRoute(path)
      case Public => Render
      case Guarded(adminOnly) => RequireAuth(v, adminOnly)
      case ToLogin => Redirect(LoginPath)
  }

  /**
   * Once loading is over, a guarded page that the top-level chain lets
   * through always renders: the two layers never disagree.
   */
  lemma GuardsAgree(v: View, path: string)
    requires !v.loading && MainRedirect(v, path).None? && MatchRoute(path).Guarded?
    ensures Page(v, path) == Render
  {
  }

  /** Any path settles after at most two redirects, in every session state. */
  lemma SettlesWithinTwoRedirects(v: View, path: string)
    ensures Page(v, path).Redirect? ==>
      var p1 := Page(v, path).to;
      Page(v, p1).Redirect? ==> !Page(v, Page(v, p1).to).Redirect?
  {
    var d := Page(v, path);
    if d.Redirect? {
      assert d.to in {LoginPath, AdminPath, CategoriesPath};
      var d1 := Page(v, d.to);
      assert MatchRoute(CategoriesPath) == Guarded(false);
      if d1.Redirect? {
        assert d1.to in {LoginPath, AdminPath, CategoriesPath};
      }
    }
  }

  /** A signed-out session is sent to the login page from every page but the two open ones. */
  lemma SignedOutGoesToLogin(v: View, path: string)
    requires !v.loading && !v.isAuthenticated
    ensures path != LoginPath && path != RegisterPath ==> Page(v, path) == Redirect(LoginPath)
    ensures path == LoginPath || path == RegisterPath ==> Page(v, path) == Render
  {
  }

  /** The shopper-side table: `/carrito` signed out goes to login; an admin there goes to the panel. */
  lemma RoutingExamples()
    ensures Page(View(false, false, false), "/carrito") == Redirect(LoginPath)
    ensures Page(View(false, true, true), "/carrito") == Redirect(AdminPath)
    ensures Page(View(false, true, false), "/carrito") == Render
    ensures Page(View(false, true, false), AdminPath) == Redirect(CategoriesPath)
    ensures Page(View(true, false, false), "/carrito") == Nothing
  {
    assert MatchRoute("/carrito") == Guarded(false);
  }

  /** The navigation bar: hidden for admins and on the login and registration pages. */
  function ShowNavbar(v: View, path: string): (b: bool)
    ensures b <==> !v.isAdmin && path !in {LoginPath, RegisterPath}
  {
    !v.isAdmin && path != LoginPath && path != RegisterPath
  }

  /**
   * On a page that actually renders once loading is over, the navigation
   * bar shows exactly outside the login, registration and admin pages.
   */
  lemma NavbarOnRenderedPages(v: View, path: string)
    requires !v.loading && Page(v, path) == Render
    ensures ShowNavbar(v, path) <==> path !in {LoginPath, RegisterPath, AdminPath}
  {
  }

  /** The category record `CatalogRoute` builds from the `:categoria` segment. */
  datatype Category = Category(id: string, name: string, description: string)

  const MedicineId := "medicina"

  /** `CatalogRoute`: `'medicina'` gets the medicine titles, every other segment the general ones. */
  function CategoryFor(categoria: string): (c: Category)
    ensures c.id == categoria
    ensures c.name == "Libros de Medicina" <==> categoria == MedicineId
    ensures c.name == "Otros Libros" <==> categoria != MedicineId
    ensures categoria == MedicineId <==>
      c.description == "Libros especializados para estudiantes de medicina"
    ensures categoria != MedicineId <==>
      c.description == "Libros para otras carreras universitarias"
  {
    if categoria == MedicineId then
      Category(categoria, "Libros de Medicina", "Libros especializados para estudiantes de medicina")
    else
      Category(categoria, "Otros Libros", "Libros para otras carreras universitarias")
  }
}

=== FILE: seqs.dfy ===
/**
 * The two list transformations the storefront applies to what it displays:
 * `Array.prototype.filter`, which keeps the order of what it keeps, and
 * `Array.prototype.sort` with a numeric comparator, which ECMAScript 2019
 * requires to be stable.
 */
module Seqs {

  /** `s.filter(keep)`. */
  function Filter<T(!new)>(s: seq<T>, keep: T -> bool): (r: seq<T>)
    ensures |r| <= |s|
  {
    if |s| == 0 then []
    else
      var rest := Filter(s[1..], keep);
      if keep(s[0]) then [s[0]] + rest else rest
  }

  /** The filter keeps exactly the elements that pass it. */
  lemma {:induction false} FilterMembers<T(!new)>(s: seq<T>, keep: T -> bool)
    ensures forall x :: x in Filter(s, keep) <==> x in s && keep(x)
    decreases |s|
  {
    if |s| > 0 {
      FilterMembers(s[1..], keep);
      assert s == [s[0]] + s[1..];
    }
  }

  /** Each kept value occurs as often in the result as in the input; the others never. */
  lemma {:induction false} FilterCount<T(!new)>(s: seq<T>, keep: T -> bool, x: T)
    ensures multiset(Filter(s, keep))[x] == if keep(x) then multiset(s)[x] else 0
    decreases |s|
  {
    if |s| > 0 {
      FilterCount(s[1..], keep, x);
      assert s == [s[0]] + s[1..];
    }
  }

  /** Filtering distributes over concatenation: kept elements stay in order. */
  lemma {:induction false} FilterAppend<T(!new)>(a: seq<T>, b: seq<T>, keep: T -> bool)
    ensures Filter(a + b, keep) == Filter(a, keep) + Filter(b, keep)
    decreases |a|
  {
    if |a| == 0 {
      assert a + b == b;
    } else {
      assert (a + b)[1..] == a[1..] + b;
      FilterAppend(a[1..], b, keep);
    }
  }

  /** A filter is the identity exactly when every element passes it. */
  lemma {:induction false} FilterIdentity<T(!new)>(s: seq<T>, keep: T -> bool)
    ensures Filter(s, keep) == s <==> forall i :: 0 <= i < |s| ==> keep(s[i])
    decreases |s|
  {
    if |s| > 0 {
      FilterIdentity(s[1..], keep);
      if Filter(s, keep) == s {
        assert keep(s[0]);
      }
      if forall i :: 0 <= i < |s| ==> keep(s[i]) {
        assert forall i :: 0 <= i < |s[1..]| ==> keep(s[1..][i]) by {
          forall i | 0 <= i < |s[1..]| ensures keep(s[1..][i]) { assert s[1..][i] == s[i + 1]; }
        }
        assert s == [s[0]] + s[1..];
      }
    }
  }

  /** Two tests that agree on every element filter alike. */
  lemma {:induction false} FilterExt<T(!new)>(s: seq<T>, f: T -> bool, g: T -> bool)
    requires forall x :: f(x) == g(x)
    ensures Filter(s, f) == Filter(s, g)
    decreases |s|
  {
    if |s| > 0 {
      FilterExt(s[1..], f, g);
    }
  }

  /** `s` is ordered by `key`, smallest first. */
  ghost predicate SortedBy<T>(s: seq<T>, key: T -> int) {
    forall i, j :: 0 <= i < j < |s| ==> key(s[i]) <= key(s[j])
  }

  /**
   * Places `x` in the sorted `t` in front of the first element whose key is
   * not smaller than its own, so that `x` precedes the equal keys after it.
   */
  function Insert<T>(x: T, t: seq<T>, key: T -> int): (r: seq<T>)
    ensures SortedBy(t, key) ==> SortedBy(r, key)
    ensures multiset(r) == multiset(t) + multiset{x}
    ensures |r| == |t| + 1
    ensures |r| > 0 && (key(r[0]) == key(x) || (|t| > 0 && r[0] == t[0]))
  {
    if |t| == 0 then [x]
    else if key(x) <= key(t[0]) then [x] + t
    else
      var rest := Insert(x, t[1..], key);
      assert t == [t[0]] + t[1..];
      assert SortedBy(t, key) ==> SortedBy(t[1..], key);
      [t[0]] + rest
  }

  /**
   * `s.sort((a, b) => key(a) - key(b))`: the stable ascending order by `key`.
   * Inserting the elements last to first, each in front of the equal keys,
   * keeps elements with equal keys in their input order, as the stable sort
   * of ECMAScript 2019 does.
   */
  function SortBy<T>(s: seq<T>, key: T -> int): (r: seq<T>)
    ensures SortedBy(r, key)
    ensures multiset(r) == multiset(s)
    ensures |r| == |s|
  {
    if |s| == 0 then []
    else
      assert s == [s[0]] + s[1..];
      Insert(s[0], SortBy(s[1..], key), key)
  }

  /** Sorting an already ordered list changes nothing, so sorting twice is sorting once. */
  lemma {:induction false} SortSortedIdentity<T>(s: seq<T>, key: T -> int)
    requires SortedBy(s, key)
    ensures SortBy(s, key) == s
    decreases |s|
  {
    if |s| > 0 {
      assert SortedBy(s[1..], key);
      SortSortedIdentity(s[1..], key);
      assert s == [s[0]] + s[1..];
    }
  }

  /** Sorting is idempotent. */
  lemma SortIdempotent<T>(s: seq<T>, key: T -> int)
    ensures SortBy(SortBy(s, key), key) == SortBy(s, key)
  {
    SortSortedIdentity(SortBy(s, key), key);
  }

  /** Membership in the class of elements whose key is `k`. */
  function KeyIs<T>(key: T -> int, k: int): T -> bool {
    y => key(y) == k
  }

  /** Filtering a list with a known head. */
  lemma FilterCons<T(!new)>(x: T, s: seq<T>, keep: T -> bool)
    ensures Filter([x] + s, keep) == if keep(x) then [x] + Filter(s, keep) else Filter(s, keep)
  {
    assert ([x] + s)[1..] == s;
  }

  /** Inserting `x` adds it in front of the elements that share its key. */
  lemma {:induction false} InsertKeepsTies<T(!new)>(x: T, t: seq<T>, key: T -> int, k: int)
    ensures Filter(Insert(x, t, key), KeyIs(key, k))
      == if key(x) == k then [x] + Filter(t, KeyIs(key, k)) else Filter(t, KeyIs(key, k))
    decreases |t|
  {
    var tie := KeyIs(key, k);
    if |t| == 0 {
      assert Insert(x, t, key) == [x] + t;
      FilterCons(x, t, tie);
    } else if key(x) <= key(t[0]) {
      assert Insert(x, t, key) == [x] + t;
      FilterCons(x, t, tie);
    } else {
      var rest := Insert(x, t[1..], key);
      InsertKeepsTies(x, t[1..], key, k);
      assert Insert(x, t, key) == [t[0]] + rest;
      FilterCons(t[0], rest, tie);
      assert t == [t[0]] + t[1..];
      FilterCons(t[0], t[1..], tie);
      assert key(x) == k ==> !tie(t[0]);
    }
  }

  /** The sort is stable: the elements sharing any one key keep their input order. */
  lemma {:induction false} SortStable<T(!new)>(s: seq<T>, key: T -> int, k: int)
    ensures Filter(SortBy(s, key), KeyIs(key, k)) == Filter(s, KeyIs(key, k))
    decreases |s|
  {
    var tie := KeyIs(key, k);
    if |s| > 0 {
      SortStable(s[1..], key, k);
      InsertKeepsTies(s[0], SortBy(s[1..], key), key, k);
      FilterAppend([s[0]], s[1..], tie);
      assert s == [s[0]] + s[1..];
    }
  }

  /**
   * Sorting on the negated key (the comparator `b - a`) is stable too: the
   * elements sharing a key keep their input order.
   */
  lemma SortStableDescending<T(!new)>(s: seq<T>, key: T -> int, neg: T -> int, k: int)
    requires forall x :: neg(x) == -key(x)
    ensures Filter(SortBy(s, neg), KeyIs(key, k)) == Filter(s, KeyIs(key, k))
  {
    SortStable(s, neg, -k);
    var same := KeyIs(key, k);
    var negSame := KeyIs(neg, -k);
    assert forall x :: negSame(x) == same(x);
    FilterExt(SortBy(s, neg), negSame, same);
    FilterExt(s, negSame, same);
  }
}

=== FILE: shop.dfy ===
/**
 * The catalogue item as the storefront receives it from the products API, and
 * the image-path rewrite that the catalogue, the checkout summary and the
 * admin panel each apply before showing a product picture.
 */
module Shop {
  import opened Options
  import opened Text

  /**
   * A catalogue item: `_id`, `name`, `description`, `price`, `pages`,
   * `image` (absent, a server path under `/uploads/`, or a full URL) and
   * `category`. Prices and page counts are whole numbers here.
   */
  datatype Product = Product(
    id: string,
    name: string,
    description: string,
    price: int,
    pages: int,
    image: Option<string>,
    category: string)

  /** Where the backend serves uploaded files from. */
  const ApiOrigin := "http://localhost:5000"
  const UploadsPrefix := "/uploads/"

  /**
   * `getImageUrl`: no image gives `''`, an upload path is made absolute on
   * the API origin, any other value is used as it is.
   */
  function ImageUrl(img: Option<string>): (r: string)
    ensures r == "" <==> img.None? || img.value == ""
    ensures img.Some? && StartsWith(img.value, UploadsPrefix) ==>
      StartsWith(r, ApiOrigin) && r[|ApiOrigin|..] == img.value
    ensures img.Some? && !StartsWith(img.value, UploadsPrefix) ==> r == img.value
  {
    match img
    case None => ""
    case Some(s) =>
      if s == "" then ""
      else if StartsWith(s, UploadsPrefix) then ApiOrigin + s
      else s
  }

  /** A URL the rewrite produced is left alone when rewritten again. */
  lemma ImageUrlIdempotent(img: Option<string>)
    ensures ImageUrl(Some(ImageUrl(img))) == ImageUrl(img)
  {
    if img.Some? && StartsWith(img.value, UploadsPrefix) {
      var r := ImageUrl(img);
      assert r[0] == 'h';
      assert !StartsWith(r, UploadsPrefix);
    }
  }
}

=== FILE: text.dfy ===
/**
 * The JavaScript string primitives the storefront relies on: `startsWith`,
 * `includes`, `trim`, the regular-expression class `\s`, `slice(-n)` and the
 * UTF-16 `length`. Strings are sequences of Unicode scalar values; `length`
 * is recomputed in UTF-16 code units where the source compares it.
 */
module Text {

  /**
   * The characters JavaScript's `\s` and `String.prototype.trim` treat as
   * blank: the WhiteSpace and LineTerminator productions of ECMAScript
   * (tab, line feed, vertical tab, form feed, carriage return, space,
   * no-break space, the Unicode space separators, U+2028, U+2029, U+FEFF).
   */
  predicate IsSpace(c: char) {
    var n := c as int;
    || (0x09 <= n <= 0x0D) || n == 0x20 || n == 0xA0 || n == 0x1680
    || (0x2000 <= n <= 0x200A) || n == 0x2028 || n == 0x2029
    || n == 0x202F || n == 0x205F || n == 0x3000 || n == 0xFEFF
  }

  /** Every character of `s` in the half-open range `[lo, hi)` is blank-free. */
  predicate NonSpaceBetween(s: string, lo: int, hi: int)
    requires 0 <= lo <= hi <= |s|
  {
    forall k :: lo <= k < hi ==> !IsSpace(s[k])
  }

  /** `s.startsWith(p)`. */
  predicate StartsWith(s: string, p: string) {
    |p| <= |s| && s[..|p|] == p
  }

  /** `t` occurs in `s` starting at index `i`. */
  predicate OccursAt(s: string, t: string, i: int) {
    0 <= i && i + |t| <= |s| && s[i..i + |t|] == t
  }

  /** `s.includes(t)`: a left-to-right scan for an occurrence of `t`. */
  function Includes(s: string, t: string): (r: bool)
    ensures r <==> exists i :: OccursAt(s, t, i)
    decreases |s|
  {
    if StartsWith(s, t) then
      assert OccursAt(s, t, 0);
      true
    else if |s| == 0 then
      false
    else
      var rest := Includes(s[1..], t);
      ShiftOccurrence(s, t);
      rest
  }

  /** An occurrence past the first character is an occurrence in the tail. */
  lemma ShiftOccurrence(s: string, t: string)
    requires |s| > 0
    requires !StartsWith(s, t)
    ensures (exists i :: OccursAt(s, t, i)) <==> (exists i :: OccursAt(s[1..], t, i))
  {
    if exists i :: OccursAt(s, t, i) {
      var i :| OccursAt(s, t, i);
      assert i > 0;
      assert s[1..][i - 1..i - 1 + |t|] == s[i..i + |t|];
      assert OccursAt(s[1..], t, i - 1);
    }
    if exists i :: OccursAt(s[1..], t, i) {
      var i :| OccursAt(s[1..], t, i);
      assert s[1..][i..i + |t|] == s[i + 1..i + 1 + |t|];
      assert OccursAt(s, t, i + 1);
    }
  }

  /** Every string includes the empty string and itself. */
  lemma IncludesTrivial(s: string)
    ensures Includes(s, "")
    ensures Includes(s, s)
  {
    assert OccursAt(s, "", 0);
    assert OccursAt(s, s, 0);
  }

  /** `s.trimStart()`: drops the leading blanks. */
  function TrimStart(s: string): (r: string)
    ensures |r| <= |s| && r == s[|s| - |r|..]
    ensures forall k :: 0 <= k < |s| - |r| ==> IsSpace(s[k])
    ensures |r| > 0 ==> !IsSpace(r[0])
    decreases |s|
  {
    if |s| > 0 && IsSpace(s[0]) then TrimStart(s[1..]) else s
  }

  /** `s.trimEnd()`: drops the trailing blanks. */
  function TrimEnd(s: string): (r: string)
    ensures |r| <= |s| && r == s[..|r|]
    ensures forall k :: |r| <= k < |s| ==> IsSpace(s[k])
    ensures |r| > 0 ==> !IsSpace(r[|r| - 1])
    decreases |s|
  {
    if |s| > 0 && IsSpace(s[|s| - 1]) then TrimEnd(s[..|s| - 1]) else s
  }

  /**
   * `r` is what is left of `s` once the `i` blanks in front of it and every
   * blank after it are cut away.
   */
  predicate TrimmedAt(s: string, r: string, i: int) {
    && 0 <= i && i + |r| <= |s| && r == s[i..i + |r|]
    && (forall k :: 0 <= k < i ==> IsSpace(s[k]))
    && (forall k :: i + |r| <= k < |s| ==> IsSpace(s[k]))
  }

  /** `s.trim()`: the blank-free core of `s`, cut out of it by position. */
  function Trim(s: string): (r: string)
    ensures exists i :: TrimmedAt(s, r, i)
    ensures |r| > 0 ==> !IsSpace(r[0]) && !IsSpace(r[|r| - 1])
  {
    var r := TrimEnd(TrimStart(s));
    TrimCuts(s);
    r
  }

  /** The two passes of `Trim` cut blanks only, and all of them. */
  lemma TrimCuts(s: string)
    ensures TrimmedAt(s, TrimEnd(TrimStart(s)), |s| - |TrimStart(s)|)
  {
    var a := TrimStart(s);
    var r := TrimEnd(a);
    var i := |s| - |a|;
    assert r == s[i..i + |r|] by {
      assert a == s[i..];
      assert r == a[..|r|];
    }
    assert forall k :: i + |r| <= k < |s| ==> IsSpace(s[k]) by {
      forall k | i + |r| <= k < |s| ensures IsSpace(s[k]) {
        assert a == s[i..];
        assert s[k] == a[k - i];
      }
    }
    TrimmedAtIntro(s, r, i);
  }

  lemma TrimmedAtIntro(s: string, r: string, i: int)
    requires 0 <= i && i + |r| <= |s| && r == s[i..i + |r|]
    requires forall k :: 0 <= k < i ==> IsSpace(s[k])
    requires forall k :: i + |r| <= k < |s| ==> IsSpace(s[k])
    ensures TrimmedAt(s, r, i)
  {
  }

  /** `!s.trim()` holds exactly for the strings made only of blanks. */
  lemma TrimEmptyIffBlank(s: string)
    ensures Trim(s) == "" <==> forall k :: 0 <= k < |s| ==> IsSpace(s[k])
  {
    var r := Trim(s);
    var i :| TrimmedAt(s, r, i);
    if r == "" {
      forall k | 0 <= k < |s| ensures IsSpace(s[k]) {
        if k >= i { assert i + |r| <= k; }
      }
    } else {
      assert s[i] == r[0];
    }
  }

  /** JavaScript's `length`: characters beyond U+FFFF count as two code units. */
  function Utf16Length(s: string): (n: nat)
    ensures |s| <= n <= 2 * |s|
    ensures (forall k :: 0 <= k < |s| ==> s[k] as int <= 0xFFFF) ==> n == |s|
  {
    if |s| == 0 then 0
    else (if s[0] as int > 0xFFFF then 2 else 1) + Utf16Length(s[1..])
  }

  /** `s.slice(-n)`: the last `n` characters, or all of `s` when it is shorter. */
  function TakeLast(s: string, n: nat): (r: string)
    ensures |r| == if |s| < n then |s| else n
    ensures s == s[..|s| - |r|] + r
  {
    if |s| < n then s else s[|s| - n..]
  }
}

=== FILE: validation.dfy ===
/**
 * The two regular expressions of the sign-up and sign-in forms:
 * `/\S+@\S+\.\S+/` for e-mail addresses (unanchored, so it looks for the
 * shape anywhere in the text) and `/^\d{7,15}$/` for telephone numbers,
 * with `\S` the complement of JavaScript's `\s` and `\d` the ASCII digits.
 */
module Validation {
  import opened Text

  /**
   * The text `s[i..j]` is a whole match of `\S+@\S+\.\S+` whose `@` is at
   * `at` and whose `.` is at `dot`: three non-empty blank-free runs.
   */
  predicate MatchesAt(s: string, i: int, at: int, dot: int, j: int) {
    && 0 <= i < at && at + 1 < dot && dot + 1 < j <= |s|
    && s[at] == '@' && s[dot] == '.'
    && NonSpaceBetween(s, i, at)
    && NonSpaceBetween(s, at + 1, dot)
    && NonSpaceBetween(s, dot + 1, j)
  }

  /** What `/\S+@\S+\.\S+/.test(s)` decides: some part of `s` matches. */
  ghost predicate RegexEmail(s: string) {
    exists i, at, dot, j :: MatchesAt(s, i, at, dot, j)
  }

  /**
   * The shortest match around an `@` at `at` and a `.` at `dot`: one
   * non-blank before the `@`, a blank-free run up to the dot, and one
   * non-blank after it.
   */
  predicate EmailAt(s: string, at: int, dot: int) {
    && 1 <= at && at + 1 < dot && dot + 1 < |s|
    && s[at] == '@' && s[dot] == '.'
    && !IsSpace(s[at - 1])
    && NonSpaceBetween(s, at + 1, dot)
    && !IsSpace(s[dot + 1])
  }

  /** A match exists exactly when a shortest one does. */
  lemma RegexEmailIffEmailAt(s: string)
    ensures RegexEmail(s) <==> exists at, dot :: EmailAt(s, at, dot)
  {
    if RegexEmail(s) {
      var i, at, dot, j :| MatchesAt(s, i, at, dot, j);
      assert EmailAt(s, at, dot);
    }
    if exists at, dot :: EmailAt(s, at, dot) {
      var at, dot :| EmailAt(s, at, dot);
      assert MatchesAt(s, at - 1, at, dot, dot + 2);
    }
  }

  /**
   * With an `@` at `at` preceded by a non-blank, and a blank-free stretch
   * from `at + 1` up to `k`, looks from `k` on for a dot that completes a
   * match.
   */
  function FindDot(s: string, at: int, k: int): (r: bool)
    requires 1 <= at && at + 1 <= k <= |s| && s[at] == '@' && !IsSpace(s[at - 1])
    requires NonSpaceBetween(s, at + 1, k)
    ensures r <==> exists dot :: k <= dot && EmailAt(s, at, dot)
    decreases |s| - k
  {
    if k == |s| then false
    else if IsSpace(s[k]) then
      false
    else if s[k] == '.' && at + 1 < k && k + 1 < |s| && !IsSpace(s[k + 1]) then
      assert EmailAt(s, at, k);
      true
    else
      var r := FindDot(s, at, k + 1);
      assert !EmailAt(s, at, k);
      r
  }

  /** Looks from `k` on for an `@` that starts a match. */
  function FindAt(s: string, k: nat): (r: bool)
    ensures r <==> exists at, dot :: k <= at && EmailAt(s, at, dot)
    decreases |s| - k
  {
    if k >= |s| then false
    else if 1 <= k && s[k] == '@' && !IsSpace(s[k - 1]) && FindDot(s, k, k + 1) then true
    else FindAt(s, k + 1)
  }

  /** `validateEmail`: the regular-expression test, decided by scanning. */
  function ValidateEmail(s: string): (r: bool)
    ensures r <==> RegexEmail(s)
  {
    RegexEmailIffEmailAt(s);
    FindAt(s, 0)
  }

  /** A string that passes the e-mail test has something left after trimming. */
  lemma EmailNotBlank(s: string)
    requires ValidateEmail(s)
    ensures Trim(s) != ""
  {
    RegexEmailIffEmailAt(s);
    var at, dot :| EmailAt(s, at, dot);
    TrimEmptyIffBlank(s);
    assert !IsSpace(s[at]);
  }

  /** Sample addresses: the usual form passes, and the test is not anchored. */
  lemma EmailExamples()
    ensures ValidateEmail("ana@mail.com")
    ensures ValidateEmail("  x a@b.c y")
    ensures !ValidateEmail("ana@mail")
    ensures !ValidateEmail("@mail.com")
    ensures !ValidateEmail("ana @mail.com")
  {
    assert EmailAt("ana@mail.com", 3, 8);
    assert EmailAt("  x a@b.c y", 5, 7);
    var s := "ana @mail.com";
    assert forall at :: 0 <= at < |s| && at != 4 ==> s[at] != '@';
    assert IsSpace(s[3]);
    RegexEmailIffEmailAt(s);
    var t := "ana@mail";
    assert forall dot :: 0 <= dot < |t| ==> t[dot] != '.';
    RegexEmailIffEmailAt(t);
    var u := "@mail.com";
    assert forall at :: 1 <= at < |u| ==> u[at] != '@';
    RegexEmailIffEmailAt(u);
  }

  /** `\d`: an ASCII decimal digit. */
  predicate IsDigit(c: char) {
    '0' <= c <= '9'
  }

  /** Every character of `s` is a digit. */
  function AllDigits(s: string): (r: bool)
    ensures r <==> forall k :: 0 <= k < |s| ==> IsDigit(s[k])
  {
    if |s| == 0 then true
    else
      assert forall k :: 1 <= k < |s| ==> s[k] == s[1..][k - 1];
      IsDigit(s[0]) && AllDigits(s[1..])
  }

  /** `validatePhone`: empty, or between 7 and 15 digits and nothing else. */
  function ValidatePhone(p: string): (r: bool)
    ensures r <==> p == "" || (7 <= |p| <= 15 && forall k :: 0 <= k < |p| ==> IsDigit(p[k]))
  {
    p == "" || (7 <= |p| <= 15 && AllDigits(p))
  }

  /** Sample numbers at both ends of the allowed length are accepted, and so is an empty field. */
  lemma PhoneAccepted()
    ensures ValidatePhone("")
    ensures ValidatePhone("1234567") && ValidatePhone("123456789012345")
  {
    var seven := "1234567";
    assert forall k :: 0 <= k < |seven| ==> IsDigit(seven[k]);
    var fifteen := "123456789012345";
    assert forall k :: 0 <= k < |fifteen| ==> IsDigit(fifteen[k]);
  }

  /** Numbers one digit too short or too long are refused, and so is a letter among digits. */
  lemma PhoneRefused()
    ensures !ValidatePhone("123456") && !ValidatePhone("1234567890123456")
    ensures !ValidatePhone("12345a7")
  {
    assert !IsDigit("12345a7"[5]);
  }

  const EmailRequired := "El email es obligatorio."
  const EmailInvalid := "Email inválido."

  /**
   * The e-mail rule both forms apply: blank after trimming is "required",
   * otherwise a failed test is "invalid", otherwise no message.
   */
  function EmailFieldError(value: string): (msg: string)
    ensures msg == "" <==> RegexEmail(value)
    ensures Trim(value) == "" ==> msg == EmailRequired
    ensures Trim(value) != "" && !RegexEmail(value) ==> msg == EmailInvalid
  {
    if Trim(value) == "" then
      assert !ValidateEmail(value) by {
        if ValidateEmail(value) { EmailNotBlank(value); }
      }
      EmailRequired
    else if !ValidateEmail(value) then EmailInvalid
    else ""
  }
}
